=== FILE: README.md ===
# Rhodes gacha game: a Dafny model of the client-side game logic

This project models the rules of a browser gacha RPG. A player pulls operators
(characters) with headhunt tickets. Pulling an operator already owned raises its
star rank, up to 25. Operators carry seven equipment slots. A squad of up to four
fights an auto-battle against a fixed enemy roster, and winning pays currency,
tickets, equipment and materials. An arena roster of up to five operators earns
passive income. The model also covers the pure parts of three screens: the
research lab, the arena team set-up and the star display.

The model follows the structure of the program:

| module | models |
|---|---|
| `Base` | `Option`, distinctness, `filter(y => y !== x)` |
| `Catalog` | `characters.js`, `items.js`, `enemies.js`: the constant tables and facts about them |
| `Equipment` | a character's `equipment` object, kept as a key-ordered association list |
| `GameState` | the reducer's state, its actions and the `findIndex`/`find` lookups |
| `StatResolver` | `calculateStats`, `calculatePower` and the passive-income amount |
| `Selection` | the capped toggle shared by the squad pickers and `TOGGLE_ARENA` |
| `Reducer` | `gameReducer`, case by case, the invariants it keeps, and the one-second tick |
| `Oracle` | `Math.random()` as an explicit stream of values in [0, 1) |
| `TurnOrder` | the stable descending-speed sort that orders each round |
| `Battle` | team set-up, one unit's turn, a round, and the 50-round battle loop |
| `Rewards` | `generateRewards` |
| `BattleScreen` | the start guard, fight, verdict and `BATTLE_WIN` dispatch, composed |
| `Lab` | the lab's production, pending gold, upgrade and claim guards, slot locking, picker |
| `Arena` | squad normalisation, team snapshot and power, opponent and player teams |
| `StarDisplay` | `getStarClass` and the five star pips |

Modelling conventions:
- Currency is a `real`. The max-star branch of `ROLL_CHARACTER` refunds `cost / 2`, and the pull cost is 1 (`src/components/game/GachaScreen.jsx:9`), so the balance can hold halves. Tickets, stats and power are `int`.
- Formulas the source evaluates in floating point are evaluated over exact reals and then floored: the star multiplier, the power weights, the tenth of power and the lab's minutes. Each contract states the integer result, for example `2·power <= 4a + 3d + h + 4s < 2·power + 2`.
- `Math.random()` is an `Rng`: a function from call number to a value in [0, 1), plus the number of calls made so far. Every random choice in a battle reads that stream in the source's call order.
- Uids built from `Date.now()` and `Math.random()` inside the reducer are part of the action. `ROLL_CHARACTER` carries the new uid. `BATTLE_WIN` carries `mint`, which names the entry appended at each index of `items`.
- The `level` field is optional (`Option<int>`), because `ROLL_CHARACTER` never sets it. The arena computes `100 * level`, which is NaN when `level` is absent; the model represents that NaN as `None`. A snapshot travels as JSON, where NaN becomes `null`, and `Number(null)` is 0.
- A `ROLL_CHARACTER` whose `baseId` is not in the catalog throws in the source when it adds a new operator or stars one up below 25, because those branches read `baseChar.stats`. An owned operator already at 25 stars takes the refund branch, which reads only `cost`, so that roll completes even when the catalog lacks its archetype. `Reduce` therefore requires `Dispatchable(s, a)`, which excludes exactly the throwing rolls (`Reducer.Rollable`). Every other action is total.
- The lab record (`level`, `slots`, `lastClaimTime`) is a parameter of the lab functions. The reducer's state has no `lab` field, and no reducer case handles the four lab actions, so each of them reaches `default`.

## Model

| member | source | states |
|---|---|---|
| Base.Without | src/components/game/BattleScreen.jsx:21 | filtering out `x` removes every occurrence and keeps every other element; a list without `x` is returned as is; distinctness is kept |
| Base.WithoutConcat | src/components/game/BattleScreen.jsx:21 | filtering a concatenation filters each part, so the kept elements keep their relative order |
| Base.WithoutSingle | src/components/game/BattleScreen.jsx:21 | a one-element list loses its element exactly when it equals `x` |
| Catalog.EnabledCharacters | src/data/characters.js:143-146 | the exposed roster keeps exactly the entries that are not test characters, or every entry when the flag is set, each taken from the full list |
| Catalog.ReleaseRoster | src/data/characters.js:7-146 | with the flag off, `CHARACTERS` is the full list minus its five `test_char` entries: the four release operators, in catalog order |
| Catalog.FindCharacter | src/context/GameContext.jsx:96 | `CHARACTERS.find` by id: a hit is a catalog entry with that id; a miss means no entry has it |
| Catalog.CharacterIdsDistinct | src/data/characters.js:9-141 | catalog ids are pairwise distinct, both in the full list and in the exposed roster |
| Catalog.FindCharacterByOwnId | src/data/characters.js:9-141 | looking up an operator by its own id finds that very entry |
| Catalog.CharacterStatsPositive | src/data/characters.js:9-141 | every catalog base stat is a positive integer |
| Catalog.EquipmentSlotsDistinct | src/data/items.js:1-9 | there are seven slot names and they are distinct |
| Catalog.ItemsWellFormed | src/data/items.js:11-89 | every item is equipment and names one of the seven slots |
| Catalog.MaterialsWellFormed | src/data/items.js:91-120 | every material is of kind material, with no slot and no stats |
| Catalog.ItemIdsDistinct | src/data/items.js:11-120 | item and material ids are pairwise distinct across both tables, so stacking by id never mixes kinds |
| Catalog.SomeDeltaNegative | src/data/items.js:26 | the heavy hammer costs 5 speed, so stats can fall and are integers, not naturals |
| Catalog.EnemiesWellFormed | src/data/enemies.js:1-50 | four enemies with distinct ids, health above 0, attack at least 5, defense at least 1, level 1 to 3 |
| Equipment.Put | src/context/GameContext.jsx:175-178 | writing a key keeps the key order; a new key is added last. JavaScript would put an integer-like key first, but every key written is one of the seven slot names, none of which is integer-like |
| Equipment.PutLookup | src/context/GameContext.jsx:175-178 | after a write, the key reads back the value written and every other key reads as before |
| Equipment.PutKeepsNamesDistinct | src/context/GameContext.jsx:175-178 | writing a key keeps the keys distinct |
| Equipment.PutIdempotent | src/context/GameContext.jsx:175-178 | writing the same value to the same key twice equals writing it once |
| Equipment.EmptyLoadout | src/context/GameContext.jsx:121-123 | a new character's equipment has exactly the seven catalog slot names, in order, all `null` |
| Equipment.EmptyLoadoutKeyed | src/context/GameContext.jsx:121-123 | the starting equipment has distinct keys |
| GameState.IndexOfUid | src/context/GameContext.jsx:169 | `findIndex` by uid: the first matching index, or none when nothing matches |
| GameState.IndexOfBase | src/context/GameContext.jsx:86 | `findIndex` by baseId: the first matching index, or none when nothing matches |
| GameState.FindByUid | src/context/GameContext.jsx:223 | `find` by uid: a hit is the first inventory member with that uid, the one `findIndex` locates; a miss means none has it |
| StatResolver.CalculateStats | src/context/GameContext.jsx:32-54 | the final stats are the stored stats plus the equipment bonus, the sum pinned down by `BonusConcat`; with every slot `null` they are the stored stats |
| StatResolver.BonusConcat | src/context/GameContext.jsx:36-46 | the equipment bonus of two groups of slots is the sum of their bonuses, so each non-null item counts once, wherever its key sits |
| StatResolver.EmptyLoadoutAddsNothing | src/context/GameContext.jsx:36-46 | equipment whose values are all `null` adds nothing to the stats |
| StatResolver.PutChangesBonus | src/context/GameContext.jsx:32-54 | writing an item to a slot changes the equipment bonus by exactly the new item's stats minus the replaced item's stats |
| StatResolver.StatsIgnoreStarsAndLevel | src/context/GameContext.jsx:32-54 | the final stats do not depend on stars or level: no multiplier is applied |
| StatResolver.CalculatePower | src/context/GameContext.jsx:56-59 | power is the floor of half of 4·attack + 3·defense + health + 4·speed, taken over the final stats |
| StatResolver.RosterPower | src/context/GameContext.jsx:221-227 | the ticker's total power is 0 when no roster uid names an owned character |
| StatResolver.RosterPowerConcat | src/context/GameContext.jsx:221-227 | the total power of a roster is the total of its first part plus that of the rest |
| StatResolver.RosterPowerSingle | src/context/GameContext.jsx:221-227 | a one-member roster is worth that member's power, or 0 when its uid is not owned |
| StatResolver.MissingMemberAddsNothing | src/context/GameContext.jsx:222-227 | a roster uid with no character behind it adds no power |
| StatResolver.PassiveIncome | src/context/GameContext.jsx:221-234 | the tick pays only when the roster power is positive; it pays at least 1, and a tenth of the power, rounded down, from 10 power on |
| Reducer.Earn | src/context/GameContext.jsx:63-67 | `ADD_CURRENCY` moves the currency by the amount and changes no other field |
| Reducer.Spend | src/context/GameContext.jsx:69-74 | `SPEND_CURRENCY` with too little currency returns the same state; otherwise only the currency drops, by the amount, and stays non-negative |
| Reducer.SpendUndoesEarn | src/context/GameContext.jsx:63-74 | spending what was just earned restores a non-negative balance |
| Reducer.StarScale | src/context/GameContext.jsx:97-106 | a star-scaled stat is the floor of base·(9 + stars)/10 |
| Reducer.StarScaleMonotonic | src/context/GameContext.jsx:97-106 | more stars never lower a non-negative scaled stat |
| Reducer.NewCharacter | src/context/GameContext.jsx:113-125 | a pulled new operator has the given uid and baseId, one star, no level, the catalog stats, and the seven slots empty |
| Reducer.StarUp | src/context/GameContext.jsx:91-108 | a star-up adds one star and recomputes the stats from the catalog base at the new rank; nothing else of the character changes |
| Reducer.Roll | src/context/GameContext.jsx:76-132 | `ROLL_CHARACTER`: a new baseId appends one operator; an owned one below 25 stars is starred up in place; either way tickets drop by the cost without any balance check. At 25 stars, inventory and tickets are kept and currency drops by half the cost. Items, roster and clock never change |
| Reducer.IndexOfItem | src/context/GameContext.jsx:150 | `items.find` by id: the first entry with that id, or none |
| Reducer.AppendItems | src/context/GameContext.jsx:143-147 | each equipment drop is appended, in order, as a new entry of count 1; existing entries are kept |
| Reducer.Stack | src/context/GameContext.jsx:149-156 | a material drop adds `count` (1 when absent or 0) to the first entry with its id, or appends a new entry; the total count of every id grows by exactly that |
| Reducer.StackAllCounts | src/context/GameContext.jsx:148-157 | stacking all material drops raises every id's total count by exactly what the drops carry for it |
| Reducer.Collect | src/context/GameContext.jsx:134-165 | `BATTLE_WIN` adds the dropped tickets and currency, appends the items and stacks the materials; inventory, roster and clock are unchanged |
| Reducer.EquipInto | src/context/GameContext.jsx:167-182 | `EQUIP_ITEM` for an unknown uid returns the state; otherwise only that character's one slot changes: it reads back the item, and every other key of its equipment, present or absent, reads as before |
| Reducer.EquipChangesStats | src/context/GameContext.jsx:32-54 | equipping an item changes the character's final stats by exactly that item's stats minus those of the item it replaced, so an item in a formerly empty slot adds its stats |
| Reducer.EquipIdempotent | src/context/GameContext.jsx:167-182 | applying the same `EQUIP_ITEM` twice equals applying it once |
| Reducer.ToggleArenaRoster | src/context/GameContext.jsx:184-198 | `TOGGLE_ARENA` changes only the roster, by the capped toggle at five: a listed id is filtered out, the others keeping their order; an absent one is appended only below five; the roster stays at most five and duplicate-free |
| Reducer.Reduce | src/context/GameContext.jsx:61-203 | unhandled actions, the lab's included, return the state unchanged; each field changes only under the cases that write it: currency under the two currency cases, rolls and battle wins; tickets under rolls and battle wins; inventory under rolls and equipping; items under battle wins; the roster under `TOGGLE_ARENA`; the clock never |
| Reducer.InitialStateWellFormed | src/context/GameContext.jsx:8-15 | the starting state satisfies every invariant the reducer keeps |
| Reducer.RollKeepsInvariants | src/context/GameContext.jsx:86-131 | a pull keeps stars within 1 to 25, at most one operator per archetype, and distinct equipment keys |
| Reducer.EquipKeepsInvariants | src/context/GameContext.jsx:167-182 | equipping keeps every invariant |
| Reducer.ReduceKeepsInvariants | src/context/GameContext.jsx:61-203 | every dispatchable action keeps every invariant |
| Reducer.Tick | src/context/GameContext.jsx:219-234 | a tick changes only the currency, never lowers it, and raises it exactly when the roster power is positive, by exactly the passive income `max(1, floor(power / 10))` |
| Selection.Toggle | src/components/game/TeamSetupModal.jsx:13-21 | the capped toggle: a present id is filtered out, the rest keeping their order; an absent id is appended only below the cap; the cap and distinctness are kept |
| Selection.ToggleTwiceRestores | src/components/game/TeamSetupModal.jsx:13-21 | toggling an absent id twice, with room, gives the selection back |
| Selection.ToggleSquadMember | src/components/game/BattleScreen.jsx:19-27 | the battle squad stays at most four distinct uids; a selected uid is filtered out, the rest keeping their order; an unselected one joins at the end only below four |
| Selection.SaveSquad | src/components/game/TeamSetupModal.jsx:23-25 | saving is impossible for an empty selection (the button at line 72 is disabled); otherwise the selection is handed on unchanged |
| Oracle.Pick | src/components/game/BattleScreen.jsx:83 | `Math.floor(Math.random() * n)` is an index below `n`, the floor of draw·n |
| Oracle.PickReaches | src/components/game/BattleScreen.jsx:83 | every index is picked by some draw |
| Rewards.MaybePick | src/components/game/BattleScreen.jsx:127-137 | a chance roll consumes one draw; on success it consumes a second draw and picks that entry of the table |
| Rewards.GenerateRewards | src/components/game/BattleScreen.jsx:117-146 | currency is 10 to 59 from the first draw; one material exactly when the second draw exceeds 0.5, picked by the third; one item exactly when the draw after the material roll exceeds 0.8, picked by the draw after that; the ticket is 0 or 1, and 1 exactly when the last draw exceeds 0.95; 4 to 6 draws are used |
| Rewards.EveryCurrencyReachable | src/components/game/BattleScreen.jsx:119 | every currency amount from 10 to 59 can drop |
| Rewards.EveryMaterialReachable | src/components/game/BattleScreen.jsx:127-131 | every material can drop |
| TurnOrder.Schedule | src/components/game/BattleScreen.jsx:73 | the acting order lists every unit exactly once, faster first, ties in allies-then-enemies order |
| TurnOrder.OrderedUnique | src/components/game/BattleScreen.jsx:73 | two orders with the same units that both respect speed-then-position are equal |
| TurnOrder.ScheduleIsTheSort | src/components/game/BattleScreen.jsx:73 | any arrangement of all units that respects speed-then-position is the schedule, so the stable sort is fully determined |
| Battle.LiveIndices | src/components/game/BattleScreen.jsx:79 | the living targets of a side, in list order: exactly the units of that side with hp above 0; non-empty iff the side stands |
| Battle.Damage | src/components/game/BattleScreen.jsx:86 | a hit does at least 1 damage and at least attack minus defense, and it is one of those two |
| Battle.Act | src/components/game/BattleScreen.jsx:75-94 | a dead unit skips its turn; a living unit facing no standing opponent ends the round; otherwise it hits the living opponent at the drawn index of the living opponents in field order, consuming one draw, and only that opponent's hp drops, by the damage |
| Battle.DrawPicksTarget | src/components/game/BattleScreen.jsx:79-84 | the draw k/n, with n living opponents, strikes the k-th of them, so every living opponent can be hit |
| Battle.RoundFrom | src/components/game/BattleScreen.jsx:75-94 | the rest of a round keeps sides, stats and max hp, never raises hp, and never leaves the field empty when someone stood |
| Battle.Round | src/components/game/BattleScreen.jsx:73-94 | a round in schedule order has the same guarantees |
| Battle.Fight | src/components/game/BattleScreen.jsx:68-99 | the loop lasts at most 50 rounds; it ends before 50 only when a side is down; it fights no round when a side starts down |
| Battle.NeverBothWiped | src/components/game/BattleScreen.jsx:68-108 | a fight never ends with both sides down, so a defeat leaves an enemy standing |
| Battle.AllyOf | src/components/game/BattleScreen.jsx:45-54 | an ally enters with `calculateStats` and its health as current and maximum hp |
| Battle.Allies | src/components/game/BattleScreen.jsx:45-54 | one ally per squad uid, in squad order |
| Battle.EnemyOf | src/components/game/BattleScreen.jsx:57-63 | an enemy enters with its catalog stats and catalog health as current and maximum hp |
| Battle.Enemies | src/components/game/BattleScreen.jsx:57-63 | one enemy per roster entry, in roster order |
| Battle.FreshEnemiesStand | src/data/enemies.js:1-50 | a roster with positive health starts standing |
| Battle.Muster | src/components/game/BattleScreen.jsx:45-63 | the field is the allies in squad order, then every enemy, and the enemy side stands |
| BattleScreen.StartBattle | src/components/game/BattleScreen.jsx:29-115 | an empty squad starts nothing; otherwise the fight runs on the stream after one draw per enemy, and a victory's drops come from the draws that follow the fight; victory iff an ally stands at exit, drops iff victory, at most 50 rounds, at least one round iff an ally stands at the start, and the drops are within bounds |
| BattleScreen.Settle | src/components/game/BattleScreen.jsx:144-145 | a victory dispatches `BATTLE_WIN` with its drops; a defeat changes nothing; characters and roster are never touched |
| BattleScreen.BattlePayout | src/components/game/BattleScreen.jsx:103-146 | a won battle pays 10 to 59 currency, at most one ticket and at most two new item entries; a lost one changes nothing |
| Lab.Occupant | src/components/game/LabScreen.jsx:22 | a slot shows the first inventory character with its uid; an empty slot, an empty string or an unknown uid shows nobody |
| Lab.TotalLevel | src/components/game/LabScreen.jsx:22-23 | `totalLevel`: when no character has a negative level, every slot that shows a character adds at least 1 |
| Lab.TotalLevelConcat | src/components/game/LabScreen.jsx:22-23 | the total over two runs of slots is the sum of their totals |
| Lab.TotalLevelSingle | src/components/game/LabScreen.jsx:22-23 | one slot adds the level of the character it shows, 1 when that level is absent or 0, or nothing for an empty slot |
| Lab.IncomePerMinute | src/components/game/LabScreen.jsx:24 | `incomePerMinute` is a multiple of ten; with no levelled character it is ten per staffed slot |
| Lab.TotalLevelCountsStaff | src/components/game/LabScreen.jsx:22-23 | when no character has a level, the total level is the number of staffed slots |
| Lab.UnstaffedLabIsIdle | src/components/game/LabScreen.jsx:22-24 | empty and unknown slots add nothing, so a lab with nobody shown produces nothing |
| Lab.PendingGold | src/components/game/LabScreen.jsx:27-28 | the pending gold is never negative; it is 0 with no income or no elapsed time; otherwise it is the floor of elapsed ms × income / 60000 |
| Lab.PendingGoldGrows | src/components/game/LabScreen.jsx:27-28 | at a fixed non-negative income the pending gold never falls as time passes |
| Lab.BattleRecords | src/components/game/LabScreen.jsx:36 | the count of the first `mat_battle_record_1` entry, or 0 when there is none |
| Lab.Upgrade | src/components/game/LabScreen.jsx:31-47 | an upgrade is dispatched iff level < 5, currency ≥ 2000·level and battle records ≥ 5·level |
| Lab.Claim | src/components/game/LabScreen.jsx:38-41 | a claim is dispatched iff some gold is pending |
| Lab.OpenPicker | src/components/game/LabScreen.jsx:142-157 | clicking a slot opens the picker iff the slot index is below the lab level |
| Lab.Assign | src/components/game/LabScreen.jsx:221-233 | a character assigned to this slot, or to none, is offered; one assigned to another slot only is not |
| Lab.Remove | src/components/game/LabScreen.jsx:159-183 | the remove button exists iff the slot is unlocked and shows a character of the catalog |
| Lab.LabDispatchesInert | src/context/GameContext.jsx:200-201 | every action the lab dispatches leaves the reducer's state unchanged |
| Arena.SquadIds | src/components/game/ArenaScreen.jsx:43 | a list squad is used as is; a record's `ids` when present; otherwise no ids |
| Arena.Scaled | src/components/game/ArenaScreen.jsx:101-103 | `k * level` is a number exactly when the level is present |
| Arena.EntryOf | src/components/game/ArenaScreen.jsx:97-105 | a snapshot entry keeps uid and baseId, with hp = maxHp = 100·level, atk = 10·level and speed 10 |
| Arena.Owned | src/components/game/ArenaScreen.jsx:89-106 | the kept uids are exactly those of the squad found in the inventory |
| Arena.OwnedConcat | src/components/game/ArenaScreen.jsx:89-106 | filtering a concatenation filters each part, so the kept uids stay in squad order |
| Arena.OwnedSingle | src/components/game/ArenaScreen.jsx:89-106 | one uid is kept exactly when it names an owned character |
| Arena.ResolvedAreOwned | src/components/game/ArenaScreen.jsx:89-106 | `Resolve`, the `map(...).filter(Boolean)` shared by the snapshot and the player's team: its k-th entry is the entry of the k-th kept uid's character, and it has one entry per kept uid |
| Arena.SaveTeam | src/components/game/ArenaScreen.jsx:84-119 | a saved team is the record of the ids with their snapshot, and its power is the summed power of the owned squad members; only the owned squad members need a catalog entry, since the source reads the archetype for them alone |
| Arena.SquadPowerIsRosterPower | src/components/game/ArenaScreen.jsx:88-94 | the squad power, summed front to back, equals the roster power, summed back to front |
| Arena.SavedIdsReadBack | src/components/game/ArenaScreen.jsx:43 | reading back a saved team yields the ids it was saved with |
| Arena.FromSnapshot | src/components/game/ArenaScreen.jsx:181-191 | an opponent from a snapshot has its numbers with `null` read as 0, defense 0, and speed 10 when absent or 0 |
| Arena.OpponentTeam | src/components/game/ArenaScreen.jsx:178-207 | a squad with a snapshot is faced entry by entry; otherwise one 1000-hp stand-in per id |
| Arena.LevellessOpponentStartsDown | src/components/game/ArenaScreen.jsx:181-191 | an operator saved without a level is faced with 0 hp and 0 attack |
| Arena.LevelledOpponent | src/components/game/ArenaScreen.jsx:181-191 | an operator saved at level n is faced with 100·n hp, 10·n attack, no defense and speed 10 |
| Arena.PlayerTeam | src/components/game/ArenaScreen.jsx:212-225 | the player's team is the snapshot the same squad would be saved with |
| Arena.StartArenaBattle | src/components/game/ArenaScreen.jsx:135-143 | a battle is engaged iff the attack squad is non-empty |
| StarDisplay.Pips | src/components/ui/Components.jsx:109 | there are exactly five pips, pip i classified at index i |
| StarDisplay.StarClass | src/components/ui/Components.jsx:86-104 | `getStarClass`: a pip reaches tier t (white 1 to chromatic 5) exactly when the count exceeds 5·(t − 1) + index, the source's "count > (tier * 5) + index" with tiers counted from white; the closed form is `TierFormula` |
| StarDisplay.TierFormula | src/components/ui/Components.jsx:86-104 | a pip's tier is 0 when the count is not above its index, else one tier per started block of five above it, at most chromatic |
| StarDisplay.MonotoneInCount | src/components/ui/Components.jsx:88-92 | more stars never lower a pip |
| StarDisplay.AntitoneInIndex | src/components/ui/Components.jsx:88-92 | a pip further right is never above one further left |
| StarDisplay.SmallCounts | src/components/ui/Components.jsx:98-103 | six stars show one bronze and four white pips; one star shows one white and four empty |
| StarDisplay.Extremes | src/components/ui/Components.jsx:88-104 | from 25 stars every pip is chromatic; at 0 or fewer every pip is empty |

## Left out

- Persistence (`localStorage` load and save), login and registration, the server, `fetch` calls and the Elo update: these are I/O. `Arena.SaveTeam` stops at the record it would send.
- Timers: the one-second tick, the lab's clock and the battle's start delay. The tick is modelled as one step (`Reducer.Tick`), and the lab takes `now` as a parameter.
- Rendering, names, images, rarity and the battle log text: these do not affect any state.
- Binary floating-point rounding in the star multiplier, the power weights and the lab's minute conversion: the model computes exact reals and floors them.
- In-place mutation: `BATTLE_WIN` increments `count` on the material object that the previous state also holds (`src/context/GameContext.jsx:152`). A value model cannot express the aliasing; it models the new state only.
- Arena battles: `BattleScreen` takes no props as written, so the opponent and player teams built by the arena are never consumed. The model builds them (`Arena.OpponentTeam`, `Arena.PlayerTeam`) and stops there.
- Lab state transitions: no reducer case handles the lab actions, so claims are never credited and upgrades never happen. The lab screen also reads `state.lab`, which the starting state does not have.
- Equipping a material: materials have no `stats` object, and `calculateStats` would throw on one. The model reads a material's stats as all absent, and the interface offers only equipment.
- A `ROLL_CHARACTER` with an unknown `baseId` that adds a new operator or stars one up below 25 throws in the source. `Reduce` excludes exactly those rolls through `Dispatchable`; the 25-star refund of an unknown `baseId` is modelled.
- Enemy uids: the battle draws one random value per enemy for its uid. The model skips those draws without naming the enemies.
- The gacha pull itself (choosing an operator) and its ticket guard at `src/components/game/GachaScreen.jsx:17`: these are UI glue around `ROLL_CHARACTER`, which itself never checks the ticket balance.
- Arena.OpponentTeam: requires a squad that is present, because with no squad the fallback reads `ids` of `undefined` and throws.
- StarDisplay.Pips: returns tiers, not the CSS class strings each tier maps to.

=== FILE: arena.dfy ===
/**
 * The arena screen's pure parts: reading a saved squad in either storage
 * format, the snapshot and power saved with a team, the opponent team built
 * from a snapshot or from bare ids, the player's own team, and the start
 * guard. Values the arena derives from `level` are `None` where the source
 * computes NaN (`100 * undefined`); a saved snapshot travels as JSON, where
 * NaN becomes `null`, and `Number(null)` reads back as 0.
 */
module Arena {
  import opened Base
  import opened Catalog
  import opened GameState
  import opened StatResolver

  /** One operator of a snapshot: the character's identity and its arena numbers. */
  datatype SnapshotEntry = SnapshotEntry(
    uid: string,
    baseId: string,
    hp: Option<int>,
    maxHp: Option<int>,
    atk: Option<int>,
    speed: int)

  /** A team's `squad` as stored: the legacy bare id list, the record `{ ids, snapshot }`, or nothing. */
  datatype SquadValue =
    | ListForm(list: seq<string>)
    | RecordForm(ids: Option<seq<string>>, snapshot: Option<seq<SnapshotEntry>>)
    | Absent

  /** What a team save sends: the squad record and its power. */
  datatype TeamRecord = TeamRecord(squad: SquadValue, power: int)

  /** A unit of an arena team as the battle would receive it. */
  datatype ArenaUnit = ArenaUnit(hp: int, maxHp: int, atk: int, def: int, speed: int)

  /** The ids of a saved squad: a list as it is, a record's `ids` when present, otherwise none. */
  function SquadIds(v: SquadValue): (r: seq<string>)
    ensures v.ListForm? ==> r == v.list
    ensures v.RecordForm? && v.ids.Some? ==> r == v.ids.value
    ensures v.Absent? || (v.RecordForm? && v.ids.None?) ==> r == []
  {
    match v
    case ListForm(list) => list
    case RecordForm(ids, _) => ids.GetOr([])
    case Absent => []
  }

  /** `k * char.level`: NaN, modelled as `None`, when the character has no level. */
  function Scaled(k: int, level: Option<int>): (r: Option<int>)
    ensures r.Some? <==> level.Some?
    ensures r.Some? ==> r.value == k * level.value
  {
    match level
    case None => None
    case Some(n) => Some(k * n)
  }

  /** The snapshot entry of a character: hp and max hp 100 per level, attack 10 per level, speed 10. */
  function EntryOf(c: Character): (e: SnapshotEntry)
    ensures e.uid == c.uid && e.baseId == c.baseId
    ensures e.hp == e.maxHp == Scaled(100, c.level) && e.atk == Scaled(10, c.level) && e.speed == 10
  {
    SnapshotEntry(c.uid, c.baseId, Scaled(100, c.level), Scaled(100, c.level), Scaled(10, c.level), 10)
  }

  /** The ids of `ids` that name an owned character, in order. */
  function Owned(inv: seq<Character>, ids: seq<string>): (r: seq<string>)
    ensures |r| <= |ids|
    ensures forall x :: x in r <==> x in ids && FindByUid(inv, x).Some?
  {
    if |ids| == 0 then []
    else
      var rest := Owned(inv, ids[1..]);
      assert forall x :: x in ids <==> x == ids[0] || x in ids[1..];
      if FindByUid(inv, ids[0]).Some? then [ids[0]] + rest else rest
  }

  /** Filtering a concatenation filters each part, so the owned ids keep their order. */
  lemma {:induction false} OwnedConcat(inv: seq<Character>, a: seq<string>, b: seq<string>)
    ensures Owned(inv, a + b) == Owned(inv, a) + Owned(inv, b)
  {
    if |a| == 0 {
      assert a + b == b;
    } else {
      assert (a + b)[1..] == a[1..] + b;
      OwnedConcat(inv, a[1..], b);
    }
  }

  /** One id survives exactly when it names an owned character. */
  lemma OwnedSingle(inv: seq<Character>, id: string)
    ensures Owned(inv, [id]) == if FindByUid(inv, id).Some? then [id] else []
  {
    assert [id][1..] == [];
  }

  /**
   * Every squad id that names an owned character names one whose archetype is
   * in the catalog: the source reads the archetype's name and image for those
   * alone, and other inventory entries may be missing from the catalog.
   */
  predicate Catalogued(inv: seq<Character>, ids: seq<string>)
  {
    forall k :: 0 <= k < |ids| && FindByUid(inv, ids[k]).Some? ==> FindCharacter(FindByUid(inv, ids[k]).value.baseId).Some?
  }

  /**
   * The entries for `ids`: unknown uids are dropped, the rest keep their order.
   * Both the saved snapshot and the player's arena team are built this way.
   */
  function Resolve(inv: seq<Character>, ids: seq<string>): (r: seq<SnapshotEntry>)
    ensures |r| <= |ids|
  {
    if |ids| == 0 then []
    else match FindByUid(inv, ids[0])
      case None => Resolve(inv, ids[1..])
      case Some(c) => [EntryOf(c)] + Resolve(inv, ids[1..])
  }

  /** The k-th resolved entry is the entry of the k-th owned id's character. */
  lemma {:induction false} ResolvedAreOwned(inv: seq<Character>, ids: seq<string>)
    ensures |Resolve(inv, ids)| == |Owned(inv, ids)|
    ensures forall k :: 0 <= k < |Resolve(inv, ids)| ==>
      && Resolve(inv, ids)[k].uid == Owned(inv, ids)[k]
      && FindByUid(inv, Owned(inv, ids)[k]).Some?
      && Resolve(inv, ids)[k] == EntryOf(FindByUid(inv, Owned(inv, ids)[k]).value)
  {
    if |ids| > 0 {
      ResolvedAreOwned(inv, ids[1..]);
      var r, rest := Resolve(inv, ids), Resolve(inv, ids[1..]);
      var o, orest := Owned(inv, ids), Owned(inv, ids[1..]);
      match FindByUid(inv, ids[0])
      case None =>
        assert r == rest && o == orest;
      case Some(c) =>
        assert r == [EntryOf(c)] + rest && o == [ids[0]] + orest;
        forall k | 1 <= k < |r|
          ensures r[k].uid == o[k] && FindByUid(inv, o[k]).Some? && r[k] == EntryOf(FindByUid(inv, o[k]).value)
        {
          assert r[k] == rest[k - 1] && o[k] == orest[k - 1];
        }
    }
  }

  /** The power saved with a team: `calculatePower` summed over the ids that name an owned character. */
  function SquadPower(inv: seq<Character>, ids: seq<string>): int
  {
    if |ids| == 0 then 0
    else
      (match FindByUid(inv, ids[0]) case None => 0 case Some(c) => CalculatePower(c))
      + SquadPower(inv, ids[1..])
  }

  /** `handleSaveTeam`: the record `{ ids, snapshot }` and the squad power. */
  function SaveTeam(inv: seq<Character>, ids: seq<string>): (t: TeamRecord)
    requires Catalogued(inv, ids)
    ensures t.squad == RecordForm(Some(ids), Some(Resolve(inv, ids)))
    ensures t.power == RosterPower(inv, ids)
  {
    SquadPowerIsRosterPower(inv, ids);
    TeamRecord(RecordForm(Some(ids), Some(Resolve(inv, ids))), SquadPower(inv, ids))
  }

  /** `RosterPower` adds the ids up from the back; one more id in front adds its power. */
  lemma {:induction false} RosterPowerCons(inv: seq<Character>, x: string, ids: seq<string>)
    ensures RosterPower(inv, [x] + ids) == MemberPower(inv, x) + RosterPower(inv, ids)
    decreases |ids|
  {
    if |ids| > 0 {
      var front := ids[..|ids| - 1];
      assert ([x] + ids)[..|ids|] == [x] + front;
      RosterPowerCons(inv, x, front);
    } else {
      assert ([x] + ids)[..0] == [];
    }
  }

  /** The squad power counts each id's power once, unknown ids as 0: it is the roster power of the ids. */
  lemma {:induction false} SquadPowerIsRosterPower(inv: seq<Character>, ids: seq<string>)
    ensures SquadPower(inv, ids) == RosterPower(inv, ids)
  {
    if |ids| > 0 {
      SquadPowerIsRosterPower(inv, ids[1..]);
      RosterPowerCons(inv, ids[0], ids[1..]);
      assert [ids[0]] + ids[1..] == ids;
    }
  }

  /** A saved team read back gives the ids it was saved with. */
  lemma SavedIdsReadBack(inv: seq<Character>, ids: seq<string>)
    requires Catalogued(inv, ids)
    ensures SquadIds(SaveTeam(inv, ids).squad) == ids
  {
  }

  /** `Number(x)` of a JSON value: `null`, which is what NaN becomes in JSON, reads as 0. */
  function NumberOf(x: Option<int>): int
  {
    match x
    case None => 0
    case Some(n) => n
  }

  /** An opponent from a snapshot entry: defense 0 (snapshots carry none), speed 10 when absent or 0. */
  function FromSnapshot(e: SnapshotEntry): (u: ArenaUnit)
    ensures u.hp == NumberOf(e.hp) && u.maxHp == NumberOf(e.maxHp) && u.atk == NumberOf(e.atk)
    ensures u.def == 0 && u.speed == (if e.speed != 0 then e.speed else 10)
  {
    ArenaUnit(NumberOf(e.hp), NumberOf(e.maxHp), NumberOf(e.atk), 0, if e.speed != 0 then e.speed else 10)
  }

  /** The stand-in for an operator known only by its id. */
  const LEGACY_UNIT := ArenaUnit(1000, 1000, 50, 20, 10)

  /**
   * The opponent's team: from the snapshot when the squad carries one,
   * otherwise one stand-in per id. The fallback reads `squad.ids` without a
   * guard, so a missing squad is outside what the source handles.
   */
  function OpponentTeam(v: SquadValue): (r: seq<ArenaUnit>)
    requires !v.Absent?
    ensures v.RecordForm? && v.snapshot.Some? ==>
      |r| == |v.snapshot.value| && forall k :: 0 <= k < |r| ==> r[k] == FromSnapshot(v.snapshot.value[k])
    ensures !(v.RecordForm? && v.snapshot.Some?) ==>
      |r| == |SquadIds(v)| && forall k :: 0 <= k < |r| ==> r[k] == LEGACY_UNIT
  {
    if v.RecordForm? && v.snapshot.Some? then
      var snap := v.snapshot.value;
      seq(|snap|, k requires 0 <= k < |snap| => FromSnapshot(snap[k]))
    else
      seq(|SquadIds(v)|, k => LEGACY_UNIT)
  }

  /**
   * A character without a level, saved and then faced as an opponent, enters
   * with 0 hp: its NaN hp was saved as `null`.
   */
  lemma LevellessOpponentStartsDown(inv: seq<Character>, ids: seq<string>, k: nat)
    requires Catalogued(inv, ids) && k < |Owned(inv, ids)|
    requires FindByUid(inv, Owned(inv, ids)[k]).value.level.None?
    ensures var team := OpponentTeam(SaveTeam(inv, ids).squad);
      k < |team| && team[k].hp == 0 && team[k].atk == 0
  {
    ResolvedAreOwned(inv, ids);
  }

  /** A levelled character faced as an opponent: 100 hp and 10 attack per level, no defense, speed 10. */
  lemma LevelledOpponent(inv: seq<Character>, ids: seq<string>, k: nat)
    requires Catalogued(inv, ids) && k < |Owned(inv, ids)|
    requires FindByUid(inv, Owned(inv, ids)[k]).value.level.Some?
    ensures var n := FindByUid(inv, Owned(inv, ids)[k]).value.level.value;
      var team := OpponentTeam(SaveTeam(inv, ids).squad);
      k < |team| && team[k] == ArenaUnit(100 * n, 100 * n, 10 * n, 0, 10)
  {
    ResolvedAreOwned(inv, ids);
  }

  /** The player's arena team: built exactly like the snapshot the same squad would be saved with. */
  function PlayerTeam(inv: seq<Character>, attackSquad: seq<string>): (r: seq<SnapshotEntry>)
    requires Catalogued(inv, attackSquad)
    ensures SaveTeam(inv, attackSquad).squad.snapshot == Some(r)
    ensures |r| <= |attackSquad|
  {
    Resolve(inv, attackSquad)
  }

  /** `startBattle`: an opponent is engaged only with a non-empty attack squad. */
  function StartArenaBattle<T>(attackSquad: seq<string>, opponent: T): (r: Option<T>)
    ensures r.None? <==> |attackSquad| == 0
    ensures r.Some? ==> r.value == opponent
  {
    if |attackSquad| == 0 then None else Some(opponent)
  }
}

=== FILE: base.dfy ===
/** Small building blocks shared by every module of the game model. */
module Base {

  /** A value that may be missing: JavaScript's `null`/`undefined` next to a present value. */
  datatype Option<+T> = None | Some(value: T)
  {
    /** The value, or `default` when missing (`x ?? default`). */
    function GetOr(default: T): T
    {
      match this
      case Some(v) => v
      case None => default
    }
  }

  /** No element occurs twice. */
  predicate Distinct<T(==)>(s: seq<T>)
  {
    forall i, j :: 0 <= i < j < |s| ==> s[i] != s[j]
  }

  /** `s.filter(y => y !== x)`: every occurrence of `x` dropped, the rest kept in order. */
  function Without<T(==)>(s: seq<T>, x: T): (r: seq<T>)
    ensures x !in r
    ensures forall i :: 0 <= i < |r| ==> r[i] in s
    ensures forall i :: 0 <= i < |s| && s[i] != x ==> s[i] in r
    ensures |r| <= |s|
    ensures x in s ==> |r| < |s|
    ensures x !in s ==> r == s
    ensures Distinct(s) ==> Distinct(r)
  {
    if |s| == 0 then []
    else if s[0] == x then Without(s[1..], x)
    else [s[0]] + Without(s[1..], x)
  }

  /** Filtering a concatenation filters each part, so the kept elements stay in their order. */
  lemma {:induction false} WithoutConcat<T>(a: seq<T>, b: seq<T>, x: T)
    ensures Without(a + b, x) == Without(a, x) + Without(b, x)
  {
    if |a| == 0 {
      assert a + b == b;
    } else {
      assert (a + b)[1..] == a[1..] + b;
      WithoutConcat(a[1..], b, x);
    }
  }

  /** A one-element list loses its element exactly when it is `x`. */
  lemma WithoutSingle<T>(y: T, x: T)
    ensures Without([y], x) == if y == x then [] else [y]
  {
    assert [y][1..] == [];
  }

  /** Dropping an element that was just appended to a list without it gives the list back. */
  lemma {:induction false} WithoutAppended<T>(s: seq<T>, x: T)
    requires x !in s
    ensures Without(s + [x], x) == s
  {
    if |s| == 0 {
      assert s + [x] == [x];
    } else {
      assert (s + [x])[1..] == s[1..] + [x];
      WithoutAppended(s[1..], x);
    }
  }
}

=== FILE: battle.dfy ===
/**
 * The auto-battle of the battle screen. Allies (the chosen squad) and the
 * enemy roster stand in one list, allies first; a unit is named by its
 * index in that list. Each round every unit acts once in speed order: a
 * unit with no hp left skips its turn, a unit with no living opponent ends
 * the round, and any other unit hits a random living opponent. The fight
 * stops when a side has no unit left standing, or after 50 rounds.
 */
module Battle {
  import opened Base
  import opened Catalog
  import opened GameState
  import opened StatResolver
  import opened Oracle
  import opened TurnOrder

  const MAX_ROUNDS: nat := 50

  datatype Side = Ally | Enemy
  {
    function Opponent(): Side
    {
      if this == Ally then Enemy else Ally
    }
  }

  /** A unit on the field: its team, its current and maximum hp and the stats it fights with. */
  datatype Fighter = Fighter(side: Side, hp: int, maxHp: int, stats: Stats)

  type Field = seq<Fighter>

  /** Some unit of `side` has hp above 0. */
  predicate Standing(units: Field, side: Side)
  {
    exists i :: 0 <= i < |units| && units[i].side == side && units[i].hp > 0
  }

  /** Some unit of either side has hp above 0. */
  predicate AnyStanding(units: Field)
  {
    exists i :: 0 <= i < |units| && units[i].hp > 0
  }

  /** `b` is `a` after some fighting: same units, same teams and stats, and no hp gained. */
  predicate Worn(a: Field, b: Field)
  {
    && |a| == |b|
    && forall i :: 0 <= i < |a| ==>
      && b[i].side == a[i].side && b[i].stats == a[i].stats && b[i].maxHp == a[i].maxHp
      && b[i].hp <= a[i].hp
  }

  function Speeds(units: Field): (r: seq<int>)
    ensures |r| == |units|
    ensures forall i :: 0 <= i < |units| ==> r[i] == units[i].stats.speed
  {
    seq(|units|, i requires 0 <= i < |units| => units[i].stats.speed)
  }

  /** The living units of `side` from index `k` on, in list order: `targets.filter(t => t.currentHp > 0)`. */
  function LiveFrom(units: Field, side: Side, k: nat): (r: seq<nat>)
    requires k <= |units|
    ensures forall a :: 0 <= a < |r| ==> k <= r[a] < |units| && units[r[a]].side == side && units[r[a]].hp > 0
    ensures forall i :: k <= i < |units| && units[i].side == side && units[i].hp > 0 ==> i in r
    ensures forall a, b :: 0 <= a < b < |r| ==> r[a] < r[b]
    decreases |units| - k
  {
    if k == |units| then []
    else
      var rest := LiveFrom(units, side, k + 1);
      if units[k].side == side && units[k].hp > 0 then [k] + rest else rest
  }

  /** Every living unit of `side`, in list order. */
  function LiveIndices(units: Field, side: Side): (r: seq<nat>)
    ensures forall a :: 0 <= a < |r| ==> r[a] < |units| && units[r[a]].side == side && units[r[a]].hp > 0
    ensures forall i :: 0 <= i < |units| && units[i].side == side && units[i].hp > 0 ==> i in r
    ensures forall a, b :: 0 <= a < b < |r| ==> r[a] < r[b]
    ensures |r| > 0 <==> Standing(units, side)
  {
    var r := LiveFrom(units, side, 0);
    if |r| > 0 then
      assert units[r[0]].side == side && units[r[0]].hp > 0;
      r
    else r
  }

  /** `Math.max(1, atk - def)`: every hit does at least 1 damage. */
  function Damage(attack: int, defense: int): (d: int)
    ensures d >= 1 && d >= attack - defense
    ensures d == 1 || d == attack - defense
  {
    if attack - defense > 1 then attack - defense else 1
  }

  /** What one unit's turn did: the field and stream after it, whom it hit, and whether it ended the round. */
  datatype Turn = Turn(units: Field, rng: Rng, struck: Option<nat>, halted: bool)

  /** The turn of unit `u`. */
  function Act(units: Field, u: nat, rng: Rng): (r: Turn)
    requires u < |units|
    ensures Worn(units, r.units) && r.rng.draw == rng.draw
    ensures units[u].hp <= 0 ==> r == Turn(units, rng, None, false)
    ensures r.halted <==> units[u].hp > 0 && !Standing(units, units[u].side.Opponent())
    ensures r.struck.Some? <==> units[u].hp > 0 && Standing(units, units[u].side.Opponent())
    ensures r.struck.None? ==> r.units == units && r.rng == rng
    ensures r.struck.Some? ==>
      var t := r.struck.value;
      && t < |units| && units[t].side != units[u].side && units[t].hp > 0
      && t == LiveIndices(units, units[u].side.Opponent())[Pick(rng.Next(), |LiveIndices(units, units[u].side.Opponent())|)]
      && r.units == units[t := units[t].(hp := units[t].hp - Damage(units[u].stats.attack, units[t].stats.defense))]
      && r.rng == rng.Skip(1)
      && r.units[u].hp > 0
  {
    var me := units[u];
    if me.hp <= 0 then Turn(units, rng, None, false)
    else
      var targets := LiveIndices(units, me.side.Opponent());
      if |targets| == 0 then Turn(units, rng, None, true)
      else
        var t := targets[Pick(rng.Next(), |targets|)];
        var hit := Damage(me.stats.attack, units[t].stats.defense);
        Turn(units[t := units[t].(hp := units[t].hp - hit)], rng.Skip(1), Some(t), false)
  }

  /**
   * The target is the k-th living opponent, counted by position on the field,
   * whenever the draw is k / n with n living opponents; so every living
   * opponent can be struck.
   */
  lemma DrawPicksTarget(units: Field, u: nat, rng: Rng, k: nat)
    requires u < |units| && units[u].hp > 0
    requires k < |LiveIndices(units, units[u].side.Opponent())|
    requires rng.Next() == k as real / |LiveIndices(units, units[u].side.Opponent())| as real
    ensures Act(units, u, rng).struck == Some(LiveIndices(units, units[u].side.Opponent())[k])
  {
    PickReaches(k, |LiveIndices(units, units[u].side.Opponent())|);
  }

  /** The field and stream after a round, or after a whole fight. */
  datatype Step = Step(units: Field, rng: Rng)

  /** The rest of a round: the turns of `order[k..]`, stopping at a turn that finds no opponent standing. */
  function RoundFrom(units: Field, order: seq<nat>, k: nat, rng: Rng): (r: Step)
    requires k <= |order| && InRange(Speeds(units), order)
    ensures Worn(units, r.units) && r.rng.draw == rng.draw && r.rng.pos >= rng.pos
    ensures AnyStanding(units) ==> AnyStanding(r.units)
    decreases |order| - k
  {
    if k == |order| then Step(units, rng)
    else
      var turn := Act(units, order[k], rng);
      if turn.halted then Step(turn.units, turn.rng)
      else
        assert Speeds(turn.units) == Speeds(units);
        // an attacker is still standing after its hit
        assert turn.struck.Some? ==> turn.units[order[k]].hp > 0;
        RoundFrom(turn.units, order, k + 1, turn.rng)
  }

  /** One round: every unit in speed order. */
  function Round(units: Field, rng: Rng): (r: Step)
    ensures Worn(units, r.units) && r.rng.draw == rng.draw && r.rng.pos >= rng.pos
    ensures AnyStanding(units) ==> AnyStanding(r.units)
  {
    RoundFrom(units, Schedule(Speeds(units)), 0, rng)
  }

  /** The outcome of a fight: the field at exit, the stream after it and the number of rounds fought. */
  datatype Outcome = Outcome(units: Field, rng: Rng, rounds: nat)

  /**
   * The battle loop from round `round` on: while both sides stand, fight a
   * round; stop after round 50.
   */
  function Fight(units: Field, rng: Rng, round: nat): (b: Outcome)
    requires 1 <= round <= MAX_ROUNDS
    ensures round - 1 <= b.rounds <= MAX_ROUNDS
    ensures Worn(units, b.units) && b.rng.draw == rng.draw
    ensures b.rounds < MAX_ROUNDS ==> !(Standing(b.units, Ally) && Standing(b.units, Enemy))
    ensures AnyStanding(units) ==> AnyStanding(b.units)
    ensures !(Standing(units, Ally) && Standing(units, Enemy)) ==> b == Outcome(units, rng, round - 1)
    ensures Standing(units, Ally) && Standing(units, Enemy) ==> b.rounds >= round
    decreases MAX_ROUNDS - round
  {
    if !(Standing(units, Ally) && Standing(units, Enemy)) then Outcome(units, rng, round - 1)
    else
      var next := Round(units, rng);
      if round + 1 > MAX_ROUNDS then Outcome(next.units, next.rng, round)
      else Fight(next.units, next.rng, round + 1)
  }

  /** Victory: some ally is standing when the loop exits, whether a side fell or the round cap was reached. */
  predicate Victory(b: Outcome)
  {
    Standing(b.units, Ally)
  }

  /** A unit standing is a unit of one of the two sides standing. */
  lemma StandingBySide(units: Field)
    ensures AnyStanding(units) <==> Standing(units, Ally) || Standing(units, Enemy)
  {
    if AnyStanding(units) {
      var i :| 0 <= i < |units| && units[i].hp > 0;
      assert units[i].side == Ally || units[i].side == Enemy;
    }
  }

  /**
   * The two sides are never wiped out together: a killing blow is struck by a
   * standing unit, so a fight that starts with anyone standing ends with
   * someone standing, and a lost fight leaves an enemy standing.
   */
  lemma NeverBothWiped(units: Field, rng: Rng)
    requires AnyStanding(units)
    ensures var b := Fight(units, rng, 1);
      && (Standing(b.units, Ally) || Standing(b.units, Enemy))
      && (!Victory(b) ==> Standing(b.units, Enemy))
  {
    var b := Fight(units, rng, 1);
    StandingBySide(b.units);
  }

  // ---------------------------------------------------------------- setting up the teams

  /** An ally enters with `calculateStats(char)` and its health as both current and maximum hp. */
  function AllyOf(c: Character): (f: Fighter)
    ensures f.side == Ally && f.stats == CalculateStats(c)
    ensures f.hp == f.maxHp == CalculateStats(c).health
  {
    var st := CalculateStats(c);
    Fighter(Ally, st.health, st.health, st)
  }

  /** Every uid of the squad names an owned character: the source reads the stats of what it finds. */
  predicate SquadOwned(inv: seq<Character>, squad: seq<string>)
  {
    forall k :: 0 <= k < |squad| ==> FindByUid(inv, squad[k]).Some?
  }

  /** The allies, in squad order. */
  function Allies(inv: seq<Character>, squad: seq<string>): (r: Field)
    requires SquadOwned(inv, squad)
    ensures |r| == |squad|
    ensures forall k :: 0 <= k < |r| ==> r[k] == AllyOf(FindByUid(inv, squad[k]).value)
  {
    seq(|squad|, k requires 0 <= k < |squad| && SquadOwned(inv, squad) => AllyOf(FindByUid(inv, squad[k]).value))
  }

  /** An enemy enters with its catalog stats and its catalog health as both current and maximum hp. */
  function EnemyOf(e: EnemyArchetype): (f: Fighter)
    ensures f.side == Enemy && f.stats == e.stats && f.hp == f.maxHp == e.stats.health
  {
    Fighter(Enemy, e.stats.health, e.stats.health, e.stats)
  }

  /** The enemies, one per entry of the roster, in roster order. */
  function Enemies(roster: seq<EnemyArchetype>): (r: Field)
    ensures |r| == |roster|
    ensures forall k :: 0 <= k < |r| ==> r[k] == EnemyOf(roster[k])
  {
    seq(|roster|, k requires 0 <= k < |roster| => EnemyOf(roster[k]))
  }

  /** A roster of units with positive health starts with its side standing. */
  lemma FreshEnemiesStand(roster: seq<EnemyArchetype>)
    requires |roster| > 0 && forall k :: 0 <= k < |roster| ==> roster[k].stats.health > 0
    ensures Standing(Enemies(roster), Enemy)
  {
    assert Enemies(roster)[0].hp > 0;
  }

  /** The field a battle starts from: the allies in squad order, then the whole enemy table, whose side stands. */
  function Muster(inv: seq<Character>, squad: seq<string>): (r: Field)
    requires SquadOwned(inv, squad)
    ensures |r| == |squad| + |ENEMIES|
    ensures forall k :: 0 <= k < |squad| ==> r[k] == AllyOf(FindByUid(inv, squad[k]).value)
    ensures forall k :: |squad| <= k < |r| ==> r[k] == EnemyOf(ENEMIES[k - |squad|])
    ensures Standing(r, Enemy)
  {
    var allies, enemies := Allies(inv, squad), Enemies(ENEMIES);
    EnemiesWellFormed();
    FreshEnemiesStand(ENEMIES);
    var k :| 0 <= k < |enemies| && enemies[k].side == Enemy && enemies[k].hp > 0;
    assert (allies + enemies)[|squad| + k] == enemies[k];
    allies + enemies
  }
}

=== FILE: battle_screen.dfy ===
/**
 * The battle screen's flow around the fight: the start guard, the set-up of
 * the two teams, the fight itself, the verdict, and on victory the rewards
 * handed to the reducer as `BATTLE_WIN`.
 */
module BattleScreen {
  import opened Base
  import opened Catalog
  import opened GameState
  import opened Oracle
  import opened Rewards
  import opened Reducer
  import opened Battle

  /** What a battle produced: the fight, its verdict, and the drops of a victory. */
  datatype Report = Report(fight: Outcome, victory: bool, drops: Option<Drops>, rng: Rng)

  /**
   * `startBattle` and the battle loop. An empty squad starts nothing. Setting
   * up the enemies draws one random value each (for their uids) before the
   * first round; the rewards are drawn after the last.
   */
  function StartBattle(inv: seq<Character>, squad: seq<string>, rng: Rng): (r: Option<Report>)
    requires SquadOwned(inv, squad)
    ensures r.None? <==> |squad| == 0
    ensures r.Some? ==>
      var rep := r.value;
      && rep.fight == Fight(Muster(inv, squad), rng.Skip(|ENEMIES|), 1)
      && rep.victory == Standing(rep.fight.units, Ally)
      && (rep.drops.Some? <==> rep.victory)
      && rep.fight.rounds <= MAX_ROUNDS
      && (rep.fight.rounds >= 1 <==> Standing(Muster(inv, squad), Ally))
      && Worn(Muster(inv, squad), rep.fight.units)
      && (rep.fight.rounds < MAX_ROUNDS ==> !(Standing(rep.fight.units, Ally) && Standing(rep.fight.units, Enemy)))
      && (rep.drops.Some? ==>
        var d := rep.drops.value;
        && d == GenerateRewards(rep.fight.rng).drops
        && rep.rng == GenerateRewards(rep.fight.rng).rng
        && 10 <= d.currency <= 59 && 0 <= d.tickets <= 1 && |d.items| <= 1 && |d.materials| <= 1)
      && (rep.drops.None? ==> rep.rng == rep.fight.rng)
  {
    if |squad| == 0 then None
    else
      var field := Muster(inv, squad);
      var fight := Fight(field, rng.Skip(|ENEMIES|), 1);
      var victory := Victory(fight);
      if victory then
        var loot := GenerateRewards(fight.rng);
        Some(Report(fight, true, Some(loot.drops), loot.rng))
      else
        Some(Report(fight, false, None, fight.rng))
  }

  /** The reducer's state after a battle: `BATTLE_WIN` with the drops of a victory; a defeat dispatches nothing. */
  function Settle(s: State, rep: Report, mint: nat -> string): (r: State)
    ensures rep.drops.None? ==> r == s
    ensures r.inventory == s.inventory && r.arenaRoster == s.arenaRoster && r.lastTick == s.lastTick
    ensures rep.drops.Some? ==>
      && r.currency == s.currency + rep.drops.value.currency as real
      && r.tickets == s.tickets + rep.drops.value.tickets
      && |s.items| <= |r.items| <= |s.items| + |rep.drops.value.items| + |rep.drops.value.materials|
  {
    match rep.drops
    case None => s
    case Some(d) => Reduce(s, BattleWin(d, mint))
  }

  /**
   * A won battle pays 10 to 59 currency, at most one ticket and at most two
   * new item entries, and changes no character; a lost one changes nothing.
   */
  lemma BattlePayout(s: State, squad: seq<string>, rng: Rng, mint: nat -> string)
    requires SquadOwned(s.inventory, squad) && |squad| > 0
    ensures var rep := StartBattle(s.inventory, squad, rng).value;
      var r := Settle(s, rep, mint);
      && (rep.victory ==>
        && s.currency + 10.0 <= r.currency <= s.currency + 59.0
        && s.tickets <= r.tickets <= s.tickets + 1
        && |s.items| <= |r.items| <= |s.items| + 2)
      && (!rep.victory ==> r == s)
      && r.inventory == s.inventory && r.arenaRoster == s.arenaRoster
  {
    var rep := StartBattle(s.inventory, squad, rng).value;
    var r := Settle(s, rep, mint);
  }
}

=== FILE: catalog.dfy ===
/**
 * The static game tables: character archetypes, equipment templates,
 * materials and the enemy roster, with the facts about them that the rest of
 * the model relies on (distinct ids, positive stats, well-formed slots).
 * Names, images, descriptions, rarity and element are presentation only and
 * are not part of the records.
 */
module Catalog {
  import opened Base

  /** The four primary combat stats. They may be negative on item deltas, so `int`. */
  datatype Stats = Stats(attack: int, defense: int, health: int, speed: int)
  {
    function Plus(other: Stats): Stats
    {
      Stats(attack + other.attack, defense + other.defense, health + other.health, speed + other.speed)
    }
  }

  const ZeroStats := Stats(0, 0, 0, 0)

  /** An item's `stats` object: each key may be absent. */
  datatype StatDelta = StatDelta(attack: Option<int>, defense: Option<int>, health: Option<int>, speed: Option<int>)
  {
    /** The delta as full stats, absent keys counting as 0. */
    function Flat(): Stats
    {
      Stats(attack.GetOr(0), defense.GetOr(0), health.GetOr(0), speed.GetOr(0))
    }
  }

  /** A material has no stats object at all; it reads as four absent keys. */
  const NoStats := StatDelta(None, None, None, None)

  datatype Archetype = Archetype(id: string, stats: Stats)

  datatype ItemKind = EquipmentItem | MaterialItem

  datatype ItemTemplate = ItemTemplate(id: string, kind: ItemKind, slot: Option<string>, stats: StatDelta)

  datatype EnemyArchetype = EnemyArchetype(id: string, level: int, stats: Stats)

  // ---------------------------------------------------------------- characters

  const ENABLE_TEST_CHARACTERS := false

  const TEST_PREFIX := "test_char"

  predicate IsTestId(id: string)
  {
    TEST_PREFIX <= id
  }

  const ALL_CHARACTERS: seq<Archetype> := [
    Archetype("test_char_warrior", Stats(15, 25, 120, 10)),
    Archetype("test_char_mage", Stats(30, 5, 80, 15)),
    Archetype("test_char_rogue", Stats(25, 10, 90, 35)),
    Archetype("test_char_tank", Stats(10, 40, 200, 5)),
    Archetype("test_char_healer", Stats(5, 15, 100, 20)),
    Archetype("heidi", Stats(15, 25, 120, 10)),
    Archetype("virtuosa", Stats(20, 25, 120, 10)),
    Archetype("reed", Stats(10, 5, 100, 20)),
    Archetype("texas", Stats(10, 5, 100, 20))
  ]

  /** The roster exposed to the game: the test archetypes are dropped unless the flag is set. */
  function EnabledCharacters(all: seq<Archetype>, enableTest: bool): (r: seq<Archetype>)
    ensures |r| <= |all|
    ensures forall i :: 0 <= i < |r| ==> r[i] in all && (enableTest || !IsTestId(r[i].id))
    ensures forall i :: 0 <= i < |all| && (enableTest || !IsTestId(all[i].id)) ==> all[i] in r
    ensures enableTest ==> r == all
  {
    if |all| == 0 then []
    else if enableTest || !IsTestId(all[0].id) then [all[0]] + EnabledCharacters(all[1..], enableTest)
    else EnabledCharacters(all[1..], enableTest)
  }

  const CHARACTERS: seq<Archetype> := EnabledCharacters(ALL_CHARACTERS, ENABLE_TEST_CHARACTERS)

  const MAX_STARS := 25

  /** `CHARACTERS.find(c => c.id === id)`: the first archetype with that id. */
  function FindCharacter(id: string): (r: Option<Archetype>)
    ensures r.Some? ==> r.value in CHARACTERS && r.value.id == id
    ensures r.None? ==> forall i :: 0 <= i < |CHARACTERS| ==> CHARACTERS[i].id != id
  {
    FindArchetype(CHARACTERS, id)
  }

  function FindArchetype(cs: seq<Archetype>, id: string): (r: Option<Archetype>)
    ensures r.Some? ==> r.value in cs && r.value.id == id
    ensures r.None? ==> forall i :: 0 <= i < |cs| ==> cs[i].id != id
  {
    if |cs| == 0 then None
    else if cs[0].id == id then Some(cs[0])
    else FindArchetype(cs[1..], id)
  }

  /** A prefix of test archetypes is dropped by the filter. */
  lemma {:induction false} EnabledSkipsTestPrefix(all: seq<Archetype>, k: nat)
    requires k <= |all|
    requires forall i :: 0 <= i < k ==> IsTestId(all[i].id)
    ensures EnabledCharacters(all, false) == EnabledCharacters(all[k..], false)
  {
    if k > 0 {
      assert all[1..][k - 1..] == all[k..];
      EnabledSkipsTestPrefix(all[1..], k - 1);
    }
  }

  /** A list with no test archetype passes the filter unchanged. */
  lemma {:induction false} EnabledKeepsReleaseEntries(all: seq<Archetype>)
    requires forall i :: 0 <= i < |all| ==> !IsTestId(all[i].id)
    ensures EnabledCharacters(all, false) == all
  {
    if |all| > 0 {
      EnabledKeepsReleaseEntries(all[1..]);
    }
  }

  /** With the flag off, the exposed roster is exactly the four release archetypes, in catalog order. */
  lemma ReleaseRoster()
    ensures CHARACTERS == ALL_CHARACTERS[5..]
    ensures |CHARACTERS| == 4
    ensures forall i :: 0 <= i < |CHARACTERS| ==> !IsTestId(CHARACTERS[i].id)
    ensures forall i :: 0 <= i < 5 ==> IsTestId(ALL_CHARACTERS[i].id)
  {
    var a := ALL_CHARACTERS;
    forall i | 0 <= i < 5
      ensures IsTestId(a[i].id)
    {
      assert a[i].id[..|TEST_PREFIX|] == TEST_PREFIX;
    }
    forall i | 5 <= i < |a|
      ensures !IsTestId(a[i].id)
    {
      assert |a[i].id| < |TEST_PREFIX|;
    }
    EnabledSkipsTestPrefix(a, 5);
    EnabledKeepsReleaseEntries(a[5..]);
  }

  const CHARACTER_IDS: seq<string> := ["test_char_warrior", "test_char_mage", "test_char_rogue",
    "test_char_tank", "test_char_healer", "heidi", "virtuosa", "reed", "texas"]

  lemma CharacterIdsListed()
    ensures Ids(ALL_CHARACTERS) == CHARACTER_IDS
  {
  }

  lemma CharacterIdListDistinct()
    ensures Distinct(CHARACTER_IDS)
  {
    var lit := CHARACTER_IDS;
    // the test ids are longer than ten letters and differ at the eleventh, the release ids
    // are shorter and differ at the first
    forall i, j | 0 <= i < j < |lit|
      ensures lit[i] != lit[j]
    {
      if j < 5 {
        assert lit[i][10] != lit[j][10];
      } else if i < 5 {
        assert |lit[i]| != |lit[j]|;
      } else {
        assert lit[i][0] != lit[j][0];
      }
    }
  }

  /** Catalog ids are pairwise distinct. */
  lemma CharacterIdsDistinct()
    ensures Distinct(Ids(ALL_CHARACTERS))
    ensures Distinct(Ids(CHARACTERS))
  {
    ReleaseRoster();
    CharacterIdsListed();
    CharacterIdListDistinct();
    assert Ids(CHARACTERS) == CHARACTER_IDS[5..];
  }

  /** The ids of a list of archetypes, in order. */
  function Ids(cs: seq<Archetype>): (r: seq<string>)
    ensures |r| == |cs|
    ensures forall i :: 0 <= i < |cs| ==> r[i] == cs[i].id
  {
    seq(|cs|, i requires 0 <= i < |cs| => cs[i].id)
  }

  /** Because ids are distinct, looking an archetype up by its own id finds exactly it. */
  lemma FindCharacterByOwnId(k: nat)
    requires k < |CHARACTERS|
    ensures FindCharacter(CHARACTERS[k].id) == Some(CHARACTERS[k])
  {
    CharacterIdsDistinct();
    var r := FindCharacter(CHARACTERS[k].id);
    var j :| 0 <= j < |CHARACTERS| && CHARACTERS[j] == r.value;
    assert Ids(CHARACTERS)[j] == Ids(CHARACTERS)[k];
  }

  /** Every catalog base stat is a positive integer. */
  lemma CharacterStatsPositive()
    ensures forall i :: 0 <= i < |ALL_CHARACTERS| ==>
      var s := ALL_CHARACTERS[i].stats; s.attack > 0 && s.defense > 0 && s.health > 0 && s.speed > 0
  {
  }

  // ---------------------------------------------------------------- items

  const EQUIPMENT_SLOTS: seq<string> := ["head", "chest", "legs", "feet", "arms", "hands", "weapon"]

  function Equip(id: string, slot: string, stats: StatDelta): ItemTemplate
  {
    ItemTemplate(id, EquipmentItem, Some(slot), stats)
  }

  function Mat(id: string): ItemTemplate
  {
    ItemTemplate(id, MaterialItem, None, NoStats)
  }

  const ITEMS: seq<ItemTemplate> := [
    Equip("wep_basic_sword", "weapon", StatDelta(Some(10), None, None, Some(2))),
    Equip("wep_heavy_hammer", "weapon", StatDelta(Some(25), None, None, Some(-5))),
    Equip("head_visor", "head", StatDelta(Some(2), Some(2), None, None)),
    Equip("chest_plate", "chest", StatDelta(None, Some(10), Some(20), None)),
    Equip("legs_greaves", "legs", StatDelta(None, Some(8), None, Some(-1))),
    Equip("feet_boots", "feet", StatDelta(None, None, None, Some(10))),
    Equip("arms_guards", "arms", StatDelta(None, Some(5), None, None)),
    Equip("hands_gloves", "hands", StatDelta(Some(3), None, None, Some(1)))
  ]

  const BATTLE_RECORD_ID := "mat_battle_record_1"

  const MATERIALS: seq<ItemTemplate> := [
    Mat(BATTLE_RECORD_ID),
    Mat("mat_battle_record_2"),
    Mat("mat_chip_sniper"),
    Mat("mat_alloy")
  ]

  /** The seven slot names are distinct. */
  lemma EquipmentSlotsDistinct()
    ensures |EQUIPMENT_SLOTS| == 7
    ensures Distinct(EQUIPMENT_SLOTS)
  {
  }

  /** Every equipment template is of kind equipment and names one of the seven slots. */
  lemma ItemsWellFormed()
    ensures forall i :: 0 <= i < |ITEMS| ==>
      ITEMS[i].kind == EquipmentItem && ITEMS[i].slot.Some? && ITEMS[i].slot.value in EQUIPMENT_SLOTS
  {
  }

  /** Every material is of kind material, with no slot and no stats. */
  lemma MaterialsWellFormed()
    ensures forall i :: 0 <= i < |MATERIALS| ==>
      MATERIALS[i].kind == MaterialItem && MATERIALS[i].slot.None? && MATERIALS[i].stats == NoStats
  {
  }

  /** Item and material ids are pairwise distinct across both tables. */
  lemma ItemIdsDistinct()
    ensures forall i, j :: 0 <= i < j < |ITEMS + MATERIALS| ==> (ITEMS + MATERIALS)[i].id != (ITEMS + MATERIALS)[j].id
  {
  }

  /** Some deltas are negative (the hammer costs 5 speed), which is why stats are `int`. */
  lemma SomeDeltaNegative()
    ensures ITEMS[1].stats.Flat().speed == -5
  {
  }

  // ---------------------------------------------------------------- enemies

  const ENEMIES: seq<EnemyArchetype> := [
    EnemyArchetype("enemy_grunt", 1, Stats(5, 2, 50, 5)),
    EnemyArchetype("enemy_hound", 2, Stats(12, 1, 30, 15)),
    EnemyArchetype("enemy_soldier", 3, Stats(10, 8, 80, 8)),
    EnemyArchetype("enemy_caster", 3, Stats(20, 2, 40, 10))
  ]

  /** Four archetypes with distinct ids, positive health, attack at least 5, defense at least 1, level 1..3. */
  lemma EnemiesWellFormed()
    ensures |ENEMIES| == 4
    ensures forall i, j :: 0 <= i < j < |ENEMIES| ==> ENEMIES[i].id != ENEMIES[j].id
    ensures forall i :: 0 <= i < |ENEMIES| ==>
      var e := ENEMIES[i];
      e.stats.health > 0 && e.stats.attack >= 5 && e.stats.defense >= 1 && 1 <= e.level <= 3
  {
  }
}

=== FILE: equipment.dfy ===
/**
 * Item instances and a character's equipment object. The equipment object is
 * a JavaScript object keyed by slot name; it is modelled as the list of its
 * (key, value) pairs in key-insertion order, which is the order
 * `Object.values` walks. A value is an item instance or `null`.
 */
module Equipment {
  import opened Base
  import opened Catalog

  /** An entry of the player's `items` list (or an equipped copy): a template spread with a uid and a stack count. */
  datatype ItemInstance = ItemInstance(uid: string, template: ItemTemplate, count: int)

  datatype Slot = Slot(name: string, item: Option<ItemInstance>)

  type Loadout = seq<Slot>

  /** The keys of the equipment object, in order. */
  function Names(e: Loadout): (r: seq<string>)
    ensures |r| == |e|
    ensures forall i :: 0 <= i < |e| ==> r[i] == e[i].name
  {
    seq(|e|, i requires 0 <= i < |e| => e[i].name)
  }

  /** `e[name]`: `None` when the key is absent, `Some(v)` with `v` the item or `null`. */
  function Lookup(e: Loadout, name: string): Option<Option<ItemInstance>>
  {
    if |e| == 0 then None
    else if e[0].name == name then Some(e[0].item)
    else Lookup(e[1..], name)
  }

  /** `{ ...e, [name]: item }`: an existing key keeps its place, a new key is added last. */
  function Put(e: Loadout, name: string, item: Option<ItemInstance>): (r: Loadout)
    ensures Names(r) == if name in Names(e) then Names(e) else Names(e) + [name]
  {
    if |e| == 0 then [Slot(name, item)]
    else if e[0].name == name then [Slot(name, item)] + e[1..]
    else
      var rest := Put(e[1..], name, item);
      assert Names(e) == [e[0].name] + Names(e[1..]);
      assert Names([e[0]] + rest) == [e[0].name] + Names(rest);
      [e[0]] + rest
  }

  /** After `Put`, the key reads back the value written and every other key reads as before. */
  lemma {:induction false} PutLookup(e: Loadout, name: string, item: Option<ItemInstance>, other: string)
    ensures Lookup(Put(e, name, item), name) == Some(item)
    ensures other != name ==> Lookup(Put(e, name, item), other) == Lookup(e, other)
  {
    var r := Put(e, name, item);
    if |e| == 0 {
    } else if e[0].name == name {
      assert r[0].name == name && r[1..] == e[1..];
    } else {
      PutLookup(e[1..], name, item, other);
      assert r[0] == e[0] && r[1..] == Put(e[1..], name, item);
    }
  }

  /** Setting a key keeps the keys of the equipment object distinct. */
  lemma PutKeepsNamesDistinct(e: Loadout, name: string, item: Option<ItemInstance>)
    requires Distinct(Names(e))
    ensures Distinct(Names(Put(e, name, item)))
  {
  }

  /** Writing the same value to the same key twice is the same as writing it once. */
  lemma {:induction false} PutIdempotent(e: Loadout, name: string, item: Option<ItemInstance>)
    ensures Put(Put(e, name, item), name, item) == Put(e, name, item)
  {
    if |e| > 0 && e[0].name != name {
      PutIdempotent(e[1..], name, item);
    }
  }

  /** The equipment object a new character starts with: every slot name of the catalog, all `null`. */
  function EmptyLoadout(): (r: Loadout)
    ensures Names(r) == EQUIPMENT_SLOTS
    ensures forall i :: 0 <= i < |r| ==> r[i].item.None?
  {
    [Slot("head", None), Slot("chest", None), Slot("legs", None), Slot("feet", None),
     Slot("arms", None), Slot("hands", None), Slot("weapon", None)]
  }

  /** The starting equipment object has the seven distinct slot names as keys. */
  lemma EmptyLoadoutKeyed()
    ensures Distinct(Names(EmptyLoadout()))
  {
    EquipmentSlotsDistinct();
  }
}

=== FILE: game_state.dfy ===
/**
 * The player's state as the reducer holds it, and the actions it is sent.
 * Values the source draws from `Date.now()`/`Math.random()` while reducing
 * (the uid of a new character or item entry) arrive in the action instead.
 */
module GameState {
  import opened Base
  import opened Catalog
  import opened Equipment

  /**
   * An owned character. `level` is `None` when the field is absent, which is
   * the case for every character the reducer creates.
   */
  datatype Character = Character(
    uid: string,
    baseId: string,
    stars: int,
    level: Option<int>,
    stats: Stats,
    equipment: Loadout)

  /** A material in a battle's drops; `count` is the optional stack size it carries. */
  datatype MaterialDrop = MaterialDrop(template: ItemTemplate, count: Option<int>)

  datatype Drops = Drops(currency: int, tickets: int, items: seq<ItemTemplate>, materials: seq<MaterialDrop>)

  datatype State = State(
    currency: real,
    tickets: int,
    inventory: seq<Character>,
    items: seq<ItemInstance>,
    arenaRoster: seq<string>,
    lastTick: int)

  datatype Action =
    | AddCurrency(amount: real)
    | SpendCurrency(amount: real)
    | RollCharacter(baseId: string, cost: int, freshUid: string)
      /** `mint(p)` is the uid given to a new entry that lands at index `p` of `items`. */
    | BattleWin(drops: Drops, mint: nat -> string)
    | EquipItem(charId: string, slot: string, item: Option<ItemInstance>)
    | ToggleArena(charId: string)
      // dispatched by the lab screen, handled by no case of the reducer
    | ClaimLabGold
    | UpgradeLab
    | AssignLabChar(slotIndex: int, charId: string)
    | RemoveLabChar(slotIndex: int)
      // any other type string
    | Unrecognised(kind: string)
  {
    /** The action falls through to the reducer's `default` case. */
    predicate Unhandled()
    {
      ClaimLabGold? || UpgradeLab? || AssignLabChar? || RemoveLabChar? || Unrecognised?
    }
  }

  /** The state a new player starts from; `now` stands for the clock read at load time. */
  function InitialState(now: int): State
  {
    State(1000.0, 5, [], [], [], now)
  }

  /** `inventory.findIndex(c => c.uid === uid)`. */
  function IndexOfUid(inv: seq<Character>, uid: string): (r: Option<nat>)
    ensures r.Some? ==> r.value < |inv| && inv[r.value].uid == uid
    ensures r.Some? ==> forall j :: 0 <= j < r.value ==> inv[j].uid != uid
    ensures r.None? ==> forall j :: 0 <= j < |inv| ==> inv[j].uid != uid
  {
    if |inv| == 0 then None
    else if inv[0].uid == uid then Some(0)
    else match IndexOfUid(inv[1..], uid)
      case None => None
      case Some(k) => Some(k + 1)
  }

  /** `inventory.findIndex(c => c.baseId === baseId)`. */
  function IndexOfBase(inv: seq<Character>, baseId: string): (r: Option<nat>)
    ensures r.Some? ==> r.value < |inv| && inv[r.value].baseId == baseId
    ensures r.Some? ==> forall j :: 0 <= j < r.value ==> inv[j].baseId != baseId
    ensures r.None? ==> forall j :: 0 <= j < |inv| ==> inv[j].baseId != baseId
  {
    if |inv| == 0 then None
    else if inv[0].baseId == baseId then Some(0)
    else match IndexOfBase(inv[1..], baseId)
      case None => None
      case Some(k) => Some(k + 1)
  }

  /** `inventory.find(c => c.uid === uid)`. */
  function FindByUid(inv: seq<Character>, uid: string): (r: Option<Character>)
    ensures r.Some? ==> r.value in inv && r.value.uid == uid
    ensures r.Some? ==> IndexOfUid(inv, uid).Some? && r.value == inv[IndexOfUid(inv, uid).value]
    ensures r.None? ==> forall j :: 0 <= j < |inv| ==> inv[j].uid != uid
  {
    match IndexOfUid(inv, uid)
    case None => None
    case Some(i) => Some(inv[i])
  }
}

=== FILE: lab.dfy ===
/**
 * The research lab screen: its production and pending-gold formulas, the
 * upgrade and claim guards, slot locking and the operator picker. The lab
 * record (`level`, `slots`, `lastClaimTime`) is an input here: the reducer's
 * state has no such field and no reducer case handles what this screen
 * dispatches, so every dispatch below reaches `default`.
 */
module Lab {
  import opened Base
  import opened Catalog
  import opened Equipment
  import opened GameState
  import opened Reducer

  const MAX_LAB_LEVEL := 5

  /** A slot holds a character uid or `null`; the empty string is falsy and counts as `null` too. */
  datatype LabState = LabState(level: int, slots: seq<Option<string>>, lastClaimTime: int)

  /** The character a slot shows: none for an empty slot or a uid the inventory does not hold. */
  function Occupant(inv: seq<Character>, slot: Option<string>): (r: Option<Character>)
    ensures r.Some? ==> slot.Some? && slot.value != "" && r.value in inv && r.value.uid == slot.value
    ensures r.Some? ==> IndexOfUid(inv, slot.value).Some? && r.value == inv[IndexOfUid(inv, slot.value).value]
    ensures r.None? && slot.Some? && slot.value != "" ==> forall j :: 0 <= j < |inv| ==> inv[j].uid != slot.value
  {
    match slot
    case None => None
    case Some(uid) => if uid == "" then None else FindByUid(inv, uid)
  }

  /** `char.level || 1`: an absent or zero level counts as 1. */
  function LevelOr1(c: Character): int
  {
    match c.level
    case Some(n) => if n != 0 then n else 1
    case None => 1
  }

  /** What one slot adds to the lab's total level. */
  function SlotLevel(inv: seq<Character>, slot: Option<string>): int
  {
    match Occupant(inv, slot)
    case None => 0
    case Some(c) => LevelOr1(c)
  }

  /** The number of slots that show a character. */
  function Staffed(inv: seq<Character>, slots: seq<Option<string>>): (n: nat)
    ensures n <= |slots|
  {
    if |slots| == 0 then 0
    else Staffed(inv, slots[..|slots| - 1]) + (if Occupant(inv, slots[|slots| - 1]).Some? then 1 else 0)
  }

  /** `totalLevel`: the sum of `level || 1` over the slots that show a character. */
  function TotalLevel(inv: seq<Character>, slots: seq<Option<string>>): (r: int)
    ensures (forall c :: c in inv ==> c.level.None? || c.level.value >= 0) ==> r >= Staffed(inv, slots)
  {
    if |slots| == 0 then 0
    else TotalLevel(inv, slots[..|slots| - 1]) + SlotLevel(inv, slots[|slots| - 1])
  }

  /**
   * With no level field on any character (as for every character the reducer
   * creates) the total level is the number of staffed slots; with no one
   * assigned it is 0.
   */
  lemma {:induction false} TotalLevelCountsStaff(inv: seq<Character>, slots: seq<Option<string>>)
    requires forall j :: 0 <= j < |inv| ==> inv[j].level.None?
    ensures TotalLevel(inv, slots) == Staffed(inv, slots)
  {
    if |slots| > 0 {
      TotalLevelCountsStaff(inv, slots[..|slots| - 1]);
      match Occupant(inv, slots[|slots| - 1])
      case None =>
      case Some(c) =>
        var j :| 0 <= j < |inv| && inv[j] == c;
    }
  }

  /** Empty and unknown slots add nothing: a lab with no one shown in it has total level 0. */
  lemma {:induction false} UnstaffedLabIsIdle(inv: seq<Character>, slots: seq<Option<string>>)
    requires forall k :: 0 <= k < |slots| ==> Occupant(inv, slots[k]).None?
    ensures TotalLevel(inv, slots) == 0 && Staffed(inv, slots) == 0
  {
    if |slots| > 0 {
      UnstaffedLabIsIdle(inv, slots[..|slots| - 1]);
    }
  }

  /** The total level of two runs of slots is the sum of their totals. */
  lemma {:induction false} TotalLevelConcat(inv: seq<Character>, a: seq<Option<string>>, b: seq<Option<string>>)
    ensures TotalLevel(inv, a + b) == TotalLevel(inv, a) + TotalLevel(inv, b)
    decreases |b|
  {
    if |b| == 0 {
      assert a + b == a;
    } else {
      var front := b[..|b| - 1];
      assert (a + b)[..|a + b| - 1] == a + front && (a + b)[|a + b| - 1] == b[|b| - 1];
      TotalLevelConcat(inv, a, front);
    }
  }

  /** One slot adds `level || 1` of the character it shows, or nothing. */
  lemma TotalLevelSingle(inv: seq<Character>, slot: Option<string>)
    ensures TotalLevel(inv, [slot]) == SlotLevel(inv, slot)
  {
    assert [slot][..0] == [];
  }

  /** `incomePerMinute`: ten gold per total level; ten per staffed slot when no character has a level. */
  function IncomePerMinute(inv: seq<Character>, lab: LabState): (r: int)
    ensures r % 10 == 0
    ensures (forall c :: c in inv ==> c.level.None?) ==> r == 10 * Staffed(inv, lab.slots)
  {
    assert (forall c :: c in inv ==> c.level.None?) ==> TotalLevel(inv, lab.slots) == Staffed(inv, lab.slots) by {
      if forall c :: c in inv ==> c.level.None? {
        TotalLevelCountsStaff(inv, lab.slots);
      }
    }
    10 * TotalLevel(inv, lab.slots)
  }

  /**
   * `pendingGold`: the income of the minutes since the last claim, rounded
   * down, and never negative. Time is in milliseconds.
   */
  function PendingGold(now: int, lastClaimTime: int, incomePerMinute: int): (g: int)
    ensures g >= 0
    ensures incomePerMinute == 0 || now == lastClaimTime ==> g == 0
    ensures var earned := (now - lastClaimTime) * incomePerMinute;
      earned >= 0 ==> 60000 * g <= earned < 60000 * (g + 1)
    ensures (now - lastClaimTime) * incomePerMinute < 0 ==> g == 0
  {
    var minutes := (now - lastClaimTime) as real / 1000.0 / 60.0;
    var gold := (minutes * incomePerMinute as real).Floor;
    assert gold as real <= (now - lastClaimTime) as real * incomePerMinute as real / 60000.0 < gold as real + 1.0;
    if gold > 0 then gold else 0
  }

  /** The pending gold never falls while time passes, at a fixed non-negative income. */
  lemma PendingGoldGrows(t1: int, t2: int, lastClaimTime: int, incomePerMinute: int)
    requires t1 <= t2 && incomePerMinute >= 0
    ensures PendingGold(t1, lastClaimTime, incomePerMinute) <= PendingGold(t2, lastClaimTime, incomePerMinute)
  {
    var g1, g2 := PendingGold(t1, lastClaimTime, incomePerMinute), PendingGold(t2, lastClaimTime, incomePerMinute);
    var e1, e2 := (t1 - lastClaimTime) * incomePerMinute, (t2 - lastClaimTime) * incomePerMinute;
    assert e1 <= e2 by {
      assert e2 - e1 == (t2 - t1) * incomePerMinute;
    }
  }

  /** `state.items.find(i => i.id === 'mat_battle_record_1')?.count || 0`. */
  function BattleRecords(items: seq<ItemInstance>): (n: int)
    ensures IndexOfItem(items, BATTLE_RECORD_ID).None? ==> n == 0
    ensures IndexOfItem(items, BATTLE_RECORD_ID).Some? ==> n == items[IndexOfItem(items, BATTLE_RECORD_ID).value].count
  {
    match IndexOfItem(items, BATTLE_RECORD_ID)
    case None => 0
    case Some(i) => if items[i].count != 0 then items[i].count else 0
  }

  /** The upgrade button's condition: below level 5, 2000 gold per level, five battle records per level. */
  predicate UpgradeAllowed(lab: LabState, currency: real, items: seq<ItemInstance>)
  {
    && lab.level < MAX_LAB_LEVEL
    && currency >= (lab.level * 2000) as real
    && BattleRecords(items) >= lab.level * 5
  }

  /** `handleUpgrade`: the action dispatched, if any. */
  function Upgrade(lab: LabState, s: State): (r: Option<Action>)
    ensures r.Some? <==>
      && lab.level < MAX_LAB_LEVEL
      && s.currency >= (lab.level * 2000) as real
      && BattleRecords(s.items) >= lab.level * 5
    ensures r.Some? ==> r.value == UpgradeLab
  {
    if UpgradeAllowed(lab, s.currency, s.items) then Some(UpgradeLab) else None
  }

  /** `handleClaim`: the claim is dispatched only when some gold is pending. */
  function Claim(pendingGold: int): (r: Option<Action>)
    ensures r.Some? <==> pendingGold > 0
    ensures r.Some? ==> r.value == ClaimLabGold
  {
    if pendingGold > 0 then Some(ClaimLabGold) else None
  }

  /** Slot `idx` is locked when it lies at or beyond the lab's level. */
  predicate Locked(lab: LabState, idx: int)
  {
    idx >= lab.level
  }

  /** Clicking slot `idx` opens the picker for it, unless the slot is locked. */
  function OpenPicker(lab: LabState, idx: int): (r: Option<int>)
    ensures r.Some? <==> idx < lab.level
    ensures r.Some? ==> r.value == idx
  {
    if !Locked(lab, idx) then Some(idx) else None
  }

  /**
   * In the picker for slot `selected`, a character is offered unless it is
   * assigned somewhere and not to this slot.
   */
  predicate Selectable(lab: LabState, selected: int, uid: string)
  {
    var elsewhere := Some(uid) in lab.slots;
    var here := 0 <= selected < |lab.slots| && lab.slots[selected] == Some(uid);
    !(elsewhere && !here)
  }

  /** Picking a character dispatches its assignment, if the button is enabled. */
  function Assign(lab: LabState, selected: int, uid: string): (r: Option<Action>)
    ensures 0 <= selected < |lab.slots| && lab.slots[selected] == Some(uid) ==> r == Some(AssignLabChar(selected, uid))
    ensures
      && (exists k :: 0 <= k < |lab.slots| && k != selected && lab.slots[k] == Some(uid))
      && !(0 <= selected < |lab.slots| && lab.slots[selected] == Some(uid))
      ==> r.None?
    ensures Some(uid) !in lab.slots ==> r == Some(AssignLabChar(selected, uid))
  {
    if Selectable(lab, selected, uid) then Some(AssignLabChar(selected, uid)) else None
  }

  /** The remove button exists only on an unlocked slot that shows a character of the catalog. */
  function Remove(lab: LabState, inv: seq<Character>, idx: nat): (r: Option<Action>)
    requires idx < |lab.slots|
    ensures r.Some? <==>
      && !Locked(lab, idx)
      && Occupant(inv, lab.slots[idx]).Some?
      && FindCharacter(Occupant(inv, lab.slots[idx]).value.baseId).Some?
    ensures r.Some? ==> r.value == RemoveLabChar(idx)
  {
    match Occupant(inv, lab.slots[idx])
    case None => None
    case Some(c) =>
      if !Locked(lab, idx) && FindCharacter(c.baseId).Some? then Some(RemoveLabChar(idx)) else None
  }

  /** Nothing the lab screen dispatches changes the state: claimed gold is never credited, no upgrade happens. */
  lemma LabDispatchesInert(s: State, lab: LabState, inv: seq<Character>, now: int, selected: int, uid: string, idx: nat)
    requires idx < |lab.slots|
    ensures forall a :: a in [Claim(PendingGold(now, lab.lastClaimTime, IncomePerMinute(inv, lab))),
                              Upgrade(lab, s), Assign(lab, selected, uid), Remove(lab, inv, idx)] && a.Some? ==>
      Dispatchable(s, a.value) && Reduce(s, a.value) == s
  {
  }
}

=== FILE: oracle.dfy ===
/**
 * `Math.random()` as an explicit input. A battle and its rewards read a
 * stream of values in [0, 1), one per call, in the order the source makes
 * the calls; `Rng` is that stream together with how much of it is used.
 */
module Oracle {
  /** A value `Math.random()` can return. */
  type Random01 = r: real | 0.0 <= r < 1.0

  /** The values successive calls return (`draw(k)` is the k-th) and the index of the next one. */
  datatype Rng = Rng(draw: nat -> Random01, pos: nat)
  {
    /** The value the next call returns. */
    function Next(): Random01
    {
      draw(pos)
    }

    /** The stream after `k` more calls. */
    function Skip(k: nat): Rng
    {
      this.(pos := pos + k)
    }
  }

  /** `Math.floor(r * n)`: a uniform choice of an index into a list of length `n`. */
  function Pick(r: Random01, n: nat): (k: nat)
    requires n > 0
    ensures k < n
    ensures k as real <= r * n as real < k as real + 1.0
  {
    var x := r * n as real;
    ScaledBelow(r, n as real);
    x.Floor
  }

  /** A value below 1 scales a length of at least 1 to below that length. */
  lemma ScaledBelow(r: real, m: real)
    requires 0.0 <= r < 1.0 && m >= 1.0
    ensures r * m < m
  {
    var d := m - 1.0;
    assert r * m == r * d + r;
    assert r * d <= d by {
      assert d - r * d == (1.0 - r) * d;
    }
  }

  /** Every index is chosen by some draw: the draw k / n picks index k. */
  lemma PickReaches(k: nat, n: nat)
    requires k < n
    ensures 0.0 <= k as real / n as real < 1.0
    ensures Pick(k as real / n as real, n) == k
  {
    var r := k as real / n as real;
    assert r * n as real == k as real;
  }
}

=== FILE: reducer.dfy ===
/**
 * `gameReducer`: the one function that turns a state and an action into the
 * next state, one case per handled action type, everything else returned
 * untouched; and the passive-income tick that feeds it.
 */
module Reducer {
  import opened Base
  import opened Catalog
  import opened Equipment
  import opened GameState
  import opened Selection
  import opened StatResolver

  // ---------------------------------------------------------------- ADD / SPEND

  /** `ADD_CURRENCY`: no check on the amount; only the currency moves. */
  function Earn(s: State, amount: real): (r: State)
    ensures r.currency - s.currency == amount
    ensures r == s.(currency := r.currency)
  {
    s.(currency := s.currency + amount)
  }

  /** `SPEND_CURRENCY`: refused (the very same state) when the balance is short; otherwise only the currency drops. */
  function Spend(s: State, amount: real): (r: State)
    ensures s.currency < amount ==> r == s
    ensures s.currency >= amount ==> r.currency == s.currency - amount && r.currency >= 0.0
    ensures r == s.(currency := r.currency)
  {
    if s.currency < amount then s else s.(currency := s.currency - amount)
  }

  /** Spending what was just earned restores a non-negative balance. */
  lemma SpendUndoesEarn(s: State, amount: real)
    requires s.currency >= 0.0
    ensures Spend(Earn(s, amount), amount) == s
  {
  }

  // ---------------------------------------------------------------- ROLL_CHARACTER

  /** `Math.floor(base * (1 + (stars - 1) * 0.1))`, evaluated exactly. */
  function StarScale(base: int, stars: int): (r: int)
    ensures 10 * r <= base * (9 + stars) < 10 * r + 10
  {
    var exact := base as real * (1.0 + (stars - 1) as real * 0.1);
    assert exact == (base * (9 + stars)) as real / 10.0;
    exact.Floor
  }

  /** The stats of an archetype at a star rank, recomputed from the catalog base stats. */
  function StarStats(base: Stats, stars: int): Stats
  {
    Stats(StarScale(base.attack, stars), StarScale(base.defense, stars),
          StarScale(base.health, stars), StarScale(base.speed, stars))
  }

  /** A higher star rank never lowers a non-negative base stat. */
  lemma StarScaleMonotonic(base: int, s1: int, s2: int)
    requires base >= 0 && s1 <= s2
    ensures StarScale(base, s1) <= StarScale(base, s2)
  {
    var a, b := StarScale(base, s1), StarScale(base, s2);
    assert base * (9 + s1) <= base * (9 + s2) by {
      assert base * (9 + s2) - base * (9 + s1) == base * (s2 - s1);
    }
  }

  /** A freshly rolled character: one star, the catalog stats, the seven slots empty, no level field. */
  function NewCharacter(uid: string, arch: Archetype): (c: Character)
    ensures c.uid == uid && c.baseId == arch.id && c.stars == 1 && c.level.None?
    ensures c.stats == arch.stats
    ensures Names(c.equipment) == EQUIPMENT_SLOTS
    ensures forall i :: 0 <= i < |c.equipment| ==> c.equipment[i].item.None?
  {
    Character(uid, arch.id, 1, None, arch.stats, EmptyLoadout())
  }

  /** One more star: stars + 1 and stats recomputed from the catalog for the new rank; all else kept. */
  function StarUp(c: Character, arch: Archetype): (r: Character)
    ensures r == c.(stars := c.stars + 1, stats := r.stats)
    ensures r.stats == StarStats(arch.stats, c.stars + 1)
  {
    c.(stars := c.stars + 1, stats := StarStats(arch.stats, c.stars + 1))
  }

  /**
   * The rolls the source completes: the catalog has the archetype, or the
   * player already owns it at 25 stars (that branch reads only the cost).
   */
  predicate Rollable(s: State, baseId: string)
  {
    || FindCharacter(baseId).Some?
    || (IndexOfBase(s.inventory, baseId).Some? && s.inventory[IndexOfBase(s.inventory, baseId).value].stars >= MAX_STARS)
  }

  /**
   * `ROLL_CHARACTER`. A new baseId adds a one-star character; an owned one
   * below the cap gains a star; at the cap the inventory and tickets are left
   * alone and the currency is charged `cost` less a refund of `cost / 2`.
   * Tickets are never checked.
   */
  function Roll(s: State, baseId: string, cost: int, freshUid: string): (r: State)
    requires Rollable(s, baseId)
    ensures r.items == s.items && r.arenaRoster == s.arenaRoster && r.lastTick == s.lastTick
    ensures IndexOfBase(s.inventory, baseId).None? ==>
      && r.inventory == s.inventory + [NewCharacter(freshUid, FindCharacter(baseId).value)]
      && r.tickets == s.tickets - cost && r.currency == s.currency
    ensures IndexOfBase(s.inventory, baseId).Some? ==>
      var i := IndexOfBase(s.inventory, baseId).value;
      if s.inventory[i].stars < MAX_STARS then
        && r.inventory == s.inventory[i := StarUp(s.inventory[i], FindCharacter(baseId).value)]
        && r.tickets == s.tickets - cost && r.currency == s.currency
      else
        && r.inventory == s.inventory && r.tickets == s.tickets
        && r.currency == s.currency - cost as real / 2.0
  {
    match IndexOfBase(s.inventory, baseId)
    case None =>
      s.(tickets := s.tickets - cost, inventory := s.inventory + [NewCharacter(freshUid, FindCharacter(baseId).value)])
    case Some(i) =>
      if s.inventory[i].stars < MAX_STARS then
        s.(tickets := s.tickets - cost, inventory := s.inventory[i := StarUp(s.inventory[i], FindCharacter(baseId).value)])
      else
        s.(currency := s.currency - cost as real + cost as real / 2.0)
  }

  // ---------------------------------------------------------------- BATTLE_WIN

  /** `newMat.count || 1`: a missing or zero count stacks as one. */
  function StackSize(count: Option<int>): int
  {
    match count
    case Some(n) => if n != 0 then n else 1
    case None => 1
  }

  /** `items.find(i => i.id === id)`, as an index. */
  function IndexOfItem(items: seq<ItemInstance>, id: string): (r: Option<nat>)
    ensures r.Some? ==> r.value < |items| && items[r.value].template.id == id
    ensures r.Some? ==> forall j :: 0 <= j < r.value ==> items[j].template.id != id
    ensures r.None? ==> forall j :: 0 <= j < |items| ==> items[j].template.id != id
  {
    if |items| == 0 then None
    else if items[0].template.id == id then Some(0)
    else match IndexOfItem(items[1..], id)
      case None => None
      case Some(k) => Some(k + 1)
  }

  /** Every equipment drop becomes a new entry of count 1, appended in drop order. */
  function AppendItems(items: seq<ItemInstance>, drops: seq<ItemTemplate>, mint: nat -> string): (r: seq<ItemInstance>)
    ensures |r| == |items| + |drops|
    ensures r[..|items|] == items
    ensures forall k :: 0 <= k < |drops| ==> r[|items| + k] == ItemInstance(mint(|items| + k), drops[k], 1)
  {
    items + seq(|drops|, k requires 0 <= k < |drops| => ItemInstance(mint(|items| + k), drops[k], 1))
  }

  /** The sum of the counts of the entries with template id `id`. */
  function TotalCount(items: seq<ItemInstance>, id: string): int
  {
    if |items| == 0 then 0
    else (if items[0].template.id == id then items[0].count else 0) + TotalCount(items[1..], id)
  }

  lemma {:induction false} TotalCountAppend(items: seq<ItemInstance>, e: ItemInstance, id: string)
    ensures TotalCount(items + [e], id) == TotalCount(items, id) + (if e.template.id == id then e.count else 0)
  {
    if |items| > 0 {
      assert (items + [e])[1..] == items[1..] + [e];
      TotalCountAppend(items[1..], e, id);
    }
  }

  lemma {:induction false} TotalCountUpdate(items: seq<ItemInstance>, i: nat, n: int, id: string)
    requires i < |items|
    ensures TotalCount(items[i := items[i].(count := items[i].count + n)], id)
         == TotalCount(items, id) + (if items[i].template.id == id then n else 0)
  {
    if i > 0 {
      assert items[i := items[i].(count := items[i].count + n)][1..] == items[1..][i - 1 := items[i].(count := items[i].count + n)];
      TotalCountUpdate(items[1..], i - 1, n, id);
    }
  }

  /**
   * One material drop: added to the count of the first entry with the same
   * id, or appended as a new entry when there is none.
   */
  function Stack(items: seq<ItemInstance>, m: MaterialDrop, mint: nat -> string): (r: seq<ItemInstance>)
    ensures IndexOfItem(items, m.template.id).Some? ==>
      var i := IndexOfItem(items, m.template.id).value;
      r == items[i := items[i].(count := items[i].count + StackSize(m.count))]
    ensures IndexOfItem(items, m.template.id).None? ==>
      r == items + [ItemInstance(mint(|items|), m.template, StackSize(m.count))]
    ensures forall id :: TotalCount(r, id) == TotalCount(items, id) + (if id == m.template.id then StackSize(m.count) else 0)
  {
    var n := StackSize(m.count);
    match IndexOfItem(items, m.template.id)
    case Some(i) =>
      var r := items[i := items[i].(count := items[i].count + n)];
      forall id ensures TotalCount(r, id) == TotalCount(items, id) + (if id == m.template.id then n else 0) {
        TotalCountUpdate(items, i, n, id);
      }
      r
    case None =>
      var e := ItemInstance(mint(|items|), m.template, n);
      forall id ensures TotalCount(items + [e], id) == TotalCount(items, id) + (if id == m.template.id then n else 0) {
        TotalCountAppend(items, e, id);
      }
      items + [e]
  }

  /** The material drops, stacked one after the other. */
  function StackAll(items: seq<ItemInstance>, mats: seq<MaterialDrop>, mint: nat -> string): (r: seq<ItemInstance>)
    ensures |items| <= |r| <= |items| + |mats|
    decreases |mats|
  {
    if |mats| == 0 then items else StackAll(Stack(items, mats[0], mint), mats[1..], mint)
  }

  /** How much the material drops add to the id `id`. */
  function DroppedCount(mats: seq<MaterialDrop>, id: string): int
  {
    if |mats| == 0 then 0
    else (if mats[0].template.id == id then StackSize(mats[0].count) else 0) + DroppedCount(mats[1..], id)
  }

  /** Stacking conserves counts: every id's total grows by exactly what the drops carry for it. */
  lemma {:induction false} StackAllCounts(items: seq<ItemInstance>, mats: seq<MaterialDrop>, mint: nat -> string, id: string)
    ensures TotalCount(StackAll(items, mats, mint), id) == TotalCount(items, id) + DroppedCount(mats, id)
    decreases |mats|
  {
    if |mats| > 0 {
      StackAllCounts(Stack(items, mats[0], mint), mats[1..], mint, id);
    }
  }

  /** `BATTLE_WIN`: tickets and currency grow by the drops; items gain the drops; nothing else changes. */
  function Collect(s: State, d: Drops, mint: nat -> string): (r: State)
    ensures r.tickets == s.tickets + d.tickets
    ensures r.currency == s.currency + d.currency as real
    ensures r == s.(tickets := r.tickets, currency := r.currency, items := r.items)
    ensures |s.items| + |d.items| <= |r.items| <= |s.items| + |d.items| + |d.materials|
    ensures r.items == StackAll(AppendItems(s.items, d.items, mint), d.materials, mint)
  {
    s.(tickets := s.tickets + d.tickets,
       currency := s.currency + d.currency as real,
       items := StackAll(AppendItems(s.items, d.items, mint), d.materials, mint))
  }

  // ---------------------------------------------------------------- EQUIP_ITEM

  /**
   * `EQUIP_ITEM`: an unknown character leaves the state as it was; otherwise
   * only that character's slot is written. The item is neither taken out of
   * `items` nor out of any other character's equipment.
   */
  function EquipInto(s: State, charId: string, slot: string, item: Option<ItemInstance>): (r: State)
    ensures IndexOfUid(s.inventory, charId).None? ==> r == s
    ensures IndexOfUid(s.inventory, charId).Some? ==>
      var i := IndexOfUid(s.inventory, charId).value;
      && r == s.(inventory := r.inventory)
      && |r.inventory| == |s.inventory|
      && (forall j :: 0 <= j < |s.inventory| && j != i ==> r.inventory[j] == s.inventory[j])
      && r.inventory[i] == s.inventory[i].(equipment := r.inventory[i].equipment)
      && Lookup(r.inventory[i].equipment, slot) == Some(item)
      && (forall k :: k != slot ==> Lookup(r.inventory[i].equipment, k) == Lookup(s.inventory[i].equipment, k))
  {
    match IndexOfUid(s.inventory, charId)
    case None => s
    case Some(i) =>
      var c := s.inventory[i];
      PutLookup(c.equipment, slot, item, slot);
      assert forall k :: k != slot ==> Lookup(Put(c.equipment, slot, item), k) == Lookup(c.equipment, k) by {
        forall k {
          PutLookup(c.equipment, slot, item, k);
        }
      }
      s.(inventory := s.inventory[i := c.(equipment := Put(c.equipment, slot, item))])
  }

  // ---------------------------------------------------------------- TOGGLE_ARENA

  /** `TOGGLE_ARENA`: only the roster changes, by the capped toggle with room for five. */
  function ToggleArenaRoster(s: State, charId: string): (r: State)
    ensures r == s.(arenaRoster := r.arenaRoster)
    ensures r.arenaRoster == Toggle(s.arenaRoster, charId, ARENA_SIZE)
    ensures charId in s.arenaRoster ==> r.arenaRoster == Without(s.arenaRoster, charId)
    ensures charId in r.arenaRoster <==> charId !in s.arenaRoster && |s.arenaRoster| < ARENA_SIZE
    ensures charId !in s.arenaRoster && |s.arenaRoster| >= ARENA_SIZE ==> r == s
    ensures |s.arenaRoster| <= ARENA_SIZE ==> |r.arenaRoster| <= ARENA_SIZE
    ensures Distinct(s.arenaRoster) ==> Distinct(r.arenaRoster)
  {
    s.(arenaRoster := Toggle(s.arenaRoster, charId, ARENA_SIZE))
  }

  // ---------------------------------------------------------------- the reducer

  /**
   * The source throws on a roll whose baseId is missing from the catalog when
   * it adds a new character or raises one below 25 stars; a roll of an owned
   * archetype already at 25 stars only refunds and never reads the catalog.
   * Every other action is total.
   */
  predicate Dispatchable(s: State, a: Action)
  {
    a.RollCharacter? ==> Rollable(s, a.baseId)
  }

  /** `gameReducer`. */
  function Reduce(s: State, a: Action): (r: State)
    requires Dispatchable(s, a)
    ensures a.Unhandled() ==> r == s
    ensures !a.RollCharacter? && !a.EquipItem? ==> r.inventory == s.inventory
    ensures !a.BattleWin? ==> r.items == s.items
    ensures !a.ToggleArena? ==> r.arenaRoster == s.arenaRoster
    ensures r.lastTick == s.lastTick
    ensures !(a.AddCurrency? || a.SpendCurrency? || a.RollCharacter? || a.BattleWin?) ==> r.currency == s.currency
    ensures !(a.RollCharacter? || a.BattleWin?) ==> r.tickets == s.tickets
  {
    match a
    case AddCurrency(amount) => Earn(s, amount)
    case SpendCurrency(amount) => Spend(s, amount)
    case RollCharacter(baseId, cost, freshUid) => Roll(s, baseId, cost, freshUid)
    case BattleWin(drops, mint) => Collect(s, drops, mint)
    case EquipItem(charId, slot, item) => EquipInto(s, charId, slot, item)
    case ToggleArena(charId) => ToggleArenaRoster(s, charId)
    case _ => s
  }

  /** Applying the same `EQUIP_ITEM` twice is the same as applying it once. */
  lemma EquipIdempotent(s: State, charId: string, slot: string, item: Option<ItemInstance>)
    ensures Reduce(Reduce(s, EquipItem(charId, slot, item)), EquipItem(charId, slot, item))
         == Reduce(s, EquipItem(charId, slot, item))
  {
    var a := EquipItem(charId, slot, item);
    var r := Reduce(s, a);
    match IndexOfUid(s.inventory, charId)
    case None =>
    case Some(i) =>
      var c := s.inventory[i];
      // the character keeps its uid and its position, so the second lookup finds it again
      assert IndexOfUid(r.inventory, charId) == Some(i) by {
        IndexOfUidStable(s.inventory, i, c.(equipment := Put(c.equipment, slot, item)));
      }
      PutIdempotent(c.equipment, slot, item);
  }

  /**
   * `EQUIP_ITEM` changes the equipped character's final stats by exactly the
   * new item's stats minus those of the item it replaced.
   */
  lemma EquipChangesStats(s: State, charId: string, slot: string, item: Option<ItemInstance>)
    ensures var r := Reduce(s, EquipItem(charId, slot, item));
      IndexOfUid(s.inventory, charId).Some? ==>
        var i := IndexOfUid(s.inventory, charId).value;
        var c := s.inventory[i];
        CalculateStats(r.inventory[i]).Plus(KeyBonus(c.equipment, slot)) == CalculateStats(c).Plus(SlotBonus(Slot(slot, item)))
  {
    match IndexOfUid(s.inventory, charId)
    case None =>
    case Some(i) =>
      var c := s.inventory[i];
      var e' := Put(c.equipment, slot, item);
      assert Reduce(s, EquipItem(charId, slot, item)).inventory[i].equipment == e';
      PutChangesBonus(c.equipment, slot, item);
      PlusShift(c.stats, Bonus(e'), KeyBonus(c.equipment, slot), Bonus(c.equipment), SlotBonus(Slot(slot, item)));
  }

  /** Replacing entry `i` by one with the same uid does not move the first match of that uid. */
  lemma {:induction false} IndexOfUidStable(inv: seq<Character>, i: nat, c: Character)
    requires i < |inv| && c.uid == inv[i].uid
    requires IndexOfUid(inv, inv[i].uid) == Some(i)
    ensures IndexOfUid(inv[i := c], c.uid) == Some(i)
  {
    if i > 0 {
      assert inv[i := c][1..] == inv[1..][i - 1 := c];
      IndexOfUidStable(inv[1..], i - 1, c);
    }
  }

  // ---------------------------------------------------------------- invariants

  /** At most one inventory entry per archetype. */
  predicate OnePerArchetype(inv: seq<Character>)
  {
    forall i, j :: 0 <= i < j < |inv| ==> inv[i].baseId != inv[j].baseId
  }

  /** Star ranks stay within 1..25. */
  predicate StarsInRange(inv: seq<Character>)
  {
    forall i :: 0 <= i < |inv| ==> 1 <= inv[i].stars <= MAX_STARS
  }

  /** Every character's equipment object has distinct keys. */
  predicate LoadoutsKeyed(inv: seq<Character>)
  {
    forall i :: 0 <= i < |inv| ==> Distinct(Names(inv[i].equipment))
  }

  /** The invariants the reducer keeps. */
  predicate WellFormed(s: State)
  {
    && OnePerArchetype(s.inventory)
    && StarsInRange(s.inventory)
    && LoadoutsKeyed(s.inventory)
    && |s.arenaRoster| <= ARENA_SIZE
    && Distinct(s.arenaRoster)
  }

  lemma InitialStateWellFormed(now: int)
    ensures WellFormed(InitialState(now))
  {
  }

  /** Appending a character of a new archetype, with a valid rank and distinct keys, keeps the inventory invariants. */
  lemma AppendKeepsInventory(inv: seq<Character>, c: Character)
    requires OnePerArchetype(inv) && StarsInRange(inv) && LoadoutsKeyed(inv)
    requires forall j :: 0 <= j < |inv| ==> inv[j].baseId != c.baseId
    requires 1 <= c.stars <= MAX_STARS && Distinct(Names(c.equipment))
    ensures OnePerArchetype(inv + [c]) && StarsInRange(inv + [c]) && LoadoutsKeyed(inv + [c])
  {
  }

  /** Replacing entry `i` by one of the same archetype, with a valid rank and distinct keys, keeps the inventory invariants. */
  lemma ReplaceKeepsInventory(inv: seq<Character>, i: nat, c: Character)
    requires OnePerArchetype(inv) && StarsInRange(inv) && LoadoutsKeyed(inv)
    requires i < |inv| && c.baseId == inv[i].baseId
    requires 1 <= c.stars <= MAX_STARS && Distinct(Names(c.equipment))
    ensures OnePerArchetype(inv[i := c]) && StarsInRange(inv[i := c]) && LoadoutsKeyed(inv[i := c])
  {
  }

  /** A roll keeps stars in 1..25 and at most one entry per archetype. */
  lemma RollKeepsInvariants(s: State, baseId: string, cost: int, freshUid: string)
    requires Rollable(s, baseId)
    requires WellFormed(s)
    ensures WellFormed(Roll(s, baseId, cost, freshUid))
  {
    match IndexOfBase(s.inventory, baseId)
    case None =>
      var c := NewCharacter(freshUid, FindCharacter(baseId).value);
      EquipmentSlotsDistinct();
      AppendKeepsInventory(s.inventory, c);
    case Some(i) =>
      if s.inventory[i].stars < MAX_STARS {
        ReplaceKeepsInventory(s.inventory, i, StarUp(s.inventory[i], FindCharacter(baseId).value));
      }
  }

  /** Equipping keeps every invariant: stars and archetypes are not touched, keys stay distinct. */
  lemma EquipKeepsInvariants(s: State, charId: string, slot: string, item: Option<ItemInstance>)
    requires WellFormed(s)
    ensures WellFormed(EquipInto(s, charId, slot, item))
  {
    match IndexOfUid(s.inventory, charId)
    case None =>
    case Some(i) =>
      PutKeepsNamesDistinct(s.inventory[i].equipment, slot, item);
  }

  /** Every action keeps the invariants. */
  lemma ReduceKeepsInvariants(s: State, a: Action)
    requires Dispatchable(s, a)
    requires WellFormed(s)
    ensures WellFormed(Reduce(s, a))
  {
    match a
    case RollCharacter(baseId, cost, freshUid) => RollKeepsInvariants(s, baseId, cost, freshUid);
    case EquipItem(charId, slot, item) => EquipKeepsInvariants(s, charId, slot, item);
    case _ =>
  }

  // ---------------------------------------------------------------- passive income

  /** One tick of the passive-income timer: `ADD_CURRENCY` of the income, or nothing. */
  function Tick(s: State): (r: State)
    ensures r == s.(currency := r.currency)
    ensures r.currency >= s.currency
    ensures r.currency > s.currency <==> RosterPower(s.inventory, s.arenaRoster) > 0
    ensures PassiveIncome(s).Some? ==> r.currency == s.currency + PassiveIncome(s).value as real
  {
    match PassiveIncome(s)
    case None => s
    case Some(x) => Reduce(s, AddCurrency(x as real))
  }
}

=== FILE: rewards.dfy ===
/**
 * `generateRewards`: the drops of a won battle, read off the random stream
 * in the order the source draws them — the currency, the material roll and
 * (on success) the material index, the item roll and (on success) the item
 * index, and the ticket roll.
 */
module Rewards {
  import opened Base
  import opened Catalog
  import opened GameState
  import opened Oracle

  /** The drops and the stream after the draws that made them. */
  datatype Looted = Looted(drops: Drops, rng: Rng)

  /** A roll that succeeds when the draw exceeds `threshold`, followed on success by a pick from `table`. */
  function MaybePick(rng: Rng, threshold: real, table: seq<ItemTemplate>): (r: (seq<ItemTemplate>, Rng))
    requires |table| > 0
    ensures r.1.draw == rng.draw
    ensures |r.0| == 0 ==> rng.Next() <= threshold && r.1.pos == rng.pos + 1
    ensures |r.0| > 0 ==>
      && rng.Next() > threshold && r.1.pos == rng.pos + 2
      && r.0 == [table[Pick(rng.draw(rng.pos + 1), |table|)]]
    ensures |r.0| <= 1
  {
    if rng.Next() > threshold then
      var after := rng.Skip(1);
      ([table[Pick(after.Next(), |table|)]], after.Skip(1))
    else
      ([], rng.Skip(1))
  }

  /**
   * The drops of a won battle: 10 to 59 currency, a material on a draw above
   * 0.5, an item on a draw above 0.8, a ticket on a draw above 0.95.
   */
  function GenerateRewards(rng: Rng): (r: Looted)
    ensures r.rng.draw == rng.draw && rng.pos + 4 <= r.rng.pos <= rng.pos + 6
    ensures 10 <= r.drops.currency <= 59
    ensures r.drops.currency == Pick(rng.Next(), 50) + 10
    ensures |r.drops.materials| <= 1 && |r.drops.items| <= 1
    ensures |r.drops.materials| == 1 <==> rng.draw(rng.pos + 1) > 0.5
    ensures forall m :: m in r.drops.materials ==> m.template in MATERIALS && m.count.None?
    ensures forall it :: it in r.drops.items ==> it in ITEMS
    ensures var p := if |r.drops.materials| == 1 then rng.pos + 3 else rng.pos + 2;
      && (|r.drops.items| == 1 <==> rng.draw(p) > 0.8)
      && (|r.drops.items| == 1 ==> r.drops.items[0] == ITEMS[Pick(rng.draw(p + 1), |ITEMS|)])
    ensures |r.drops.materials| == 1 ==> r.drops.materials[0].template == MATERIALS[Pick(rng.draw(rng.pos + 2), |MATERIALS|)]
    ensures r.drops.tickets == 0 || r.drops.tickets == 1
    ensures r.drops.tickets == 1 <==> r.rng.draw(r.rng.pos - 1) > 0.95
  {
    MaterialsWellFormed();
    ItemsWellFormed();
    var currency := Pick(rng.Next(), 50) + 10;
    var (mats, afterMat) := MaybePick(rng.Skip(1), 0.5, MATERIALS);
    var (items, afterItem) := MaybePick(afterMat, 0.8, ITEMS);
    var tickets := if afterItem.Next() > 0.95 then 1 else 0;
    var drops := Drops(currency, tickets, items, seq(|mats|, k requires 0 <= k < |mats| => MaterialDrop(mats[k], None)));
    Looted(drops, afterItem.Skip(1))
  }

  /** Every currency amount from 10 to 59 is reachable: the first draw (v - 10) / 50 yields v. */
  lemma EveryCurrencyReachable(v: int, rng: Rng)
    requires 10 <= v <= 59
    requires rng.Next() == (v - 10) as real / 50.0
    ensures GenerateRewards(rng).drops.currency == v
  {
    PickReaches(v - 10, 50);
  }

  /** Every material can drop: after a material roll above 0.5, the index draw k / 4 drops material k. */
  lemma EveryMaterialReachable(k: nat, rng: Rng)
    requires k < |MATERIALS|
    requires rng.draw(rng.pos + 1) > 0.5
    requires rng.draw(rng.pos + 2) == k as real / |MATERIALS| as real
    ensures GenerateRewards(rng).drops.materials == [MaterialDrop(MATERIALS[k], None)]
  {
    PickReaches(k, |MATERIALS|);
  }
}

=== FILE: selection.dfy ===
/**
 * Capped membership toggles. One rule serves three places: the battle squad
 * picker (`toggleUnit`, cap 4), the arena team picker (`toggleChar`, cap 4)
 * and the reducer's arena roster (`TOGGLE_ARENA`, cap 5). A present id is
 * filtered out; an absent id is appended only while the list is below the
 * cap; otherwise the list is left as it was.
 */
module Selection {
  import opened Base

  const SQUAD_SIZE: nat := 4

  const ARENA_SIZE: nat := 5

  /** Flip the membership of `id` in `sel`, refusing to grow past `cap`. */
  function Toggle(sel: seq<string>, id: string, cap: nat): (r: seq<string>)
    ensures id in r <==> id !in sel && |sel| < cap
    ensures forall i :: 0 <= i < |sel| && sel[i] != id ==> sel[i] in r
    ensures forall i :: 0 <= i < |r| && r[i] != id ==> r[i] in sel
    ensures id in sel ==> r == Without(sel, id)
    ensures id !in sel && |sel| < cap ==> r == sel + [id]
    ensures id !in sel && |sel| >= cap ==> r == sel
    ensures |sel| <= cap ==> |r| <= cap
    ensures Distinct(sel) ==> Distinct(r)
  {
    if id in sel then Without(sel, id)
    else if |sel| < cap then sel + [id]
    else sel
  }

  /** Toggling an absent id twice, with room for it, gives the original list back. */
  lemma ToggleTwiceRestores(sel: seq<string>, id: string, cap: nat)
    requires id !in sel && |sel| < cap
    ensures Toggle(Toggle(sel, id, cap), id, cap) == sel
  {
    WithoutAppended(sel, id);
  }

  /** The squad picker's `toggleChar` / `toggleUnit`: at most four operators. */
  function ToggleSquadMember(squad: seq<string>, uid: string): (r: seq<string>)
    ensures |squad| <= SQUAD_SIZE ==> |r| <= SQUAD_SIZE
    ensures Distinct(squad) ==> Distinct(r)
    ensures uid in squad ==> r == Without(squad, uid) && uid !in r && |r| < |squad|
    ensures uid !in squad && |squad| < SQUAD_SIZE ==> r == squad + [uid]
    ensures uid !in squad && |squad| >= SQUAD_SIZE ==> r == squad
  {
    Toggle(squad, uid, SQUAD_SIZE)
  }

  /** The save button is disabled for an empty selection; otherwise the selection is handed on untouched. */
  function SaveSquad(squad: seq<string>): (r: Option<seq<string>>)
    ensures r.None? <==> |squad| == 0
    ensures r.Some? ==> r.value == squad
  {
    if |squad| == 0 then None else Some(squad)
  }
}

=== FILE: star_display.dfy ===
/**
 * The star display: five pips, each coloured by a tier that depends on the
 * star count and the pip's position. Every five stars lift the pips one
 * tier, filling from the left.
 */
module StarDisplay {
  const PIPS: nat := 5

  datatype Tier = Empty | White | Bronze | Silver | Gold | Chromatic
  {
    /** The tier's place in the order Empty < White < Bronze < Silver < Gold < Chromatic. */
    function Rank(): nat
    {
      match this
      case Empty => 0
      case White => 1
      case Bronze => 2
      case Silver => 3
      case Gold => 4
      case Chromatic => 5
    }
  }

  /** The count a pip at `index` must exceed to reach `tier` (1 for white up to 5 for chromatic). */
  function Threshold(tier: nat, index: int): int
  {
    5 * (tier - 1) + index
  }

  /** `getStarClass(index)`: the first threshold the count exceeds, from the top tier down. */
  function StarClass(count: int, index: int): (r: Tier)
    ensures forall t: nat :: 1 <= t <= 5 ==> (r.Rank() >= t <==> count > Threshold(t, index))
  {
    if count > 20 + index then Chromatic
    else if count > 15 + index then Gold
    else if count > 10 + index then Silver
    else if count > 5 + index then Bronze
    else if count > index then White
    else Empty
  }

  /** The five pips, left to right. */
  function Pips(count: int): (r: seq<Tier>)
    ensures |r| == PIPS
    ensures forall i :: 0 <= i < PIPS ==> r[i] == StarClass(count, i)
  {
    seq(PIPS, i => StarClass(count, i))
  }

  /**
   * The tier as a closed formula: none for a count not above the index,
   * otherwise one tier per started block of five above it, at most five.
   */
  lemma TierFormula(count: int, index: int)
    ensures StarClass(count, index).Rank() ==
      if count <= index then 0
      else if (count - index - 1) / 5 + 1 < 5 then (count - index - 1) / 5 + 1
      else 5
  {
  }

  /** More stars never lower a pip. */
  lemma MonotoneInCount(c1: int, c2: int, index: int)
    requires c1 <= c2
    ensures StarClass(c1, index).Rank() <= StarClass(c2, index).Rank()
  {
  }

  /** A pip further right is never above one further left. */
  lemma AntitoneInIndex(count: int, i: int, j: int)
    requires i <= j
    ensures StarClass(count, j).Rank() <= StarClass(count, i).Rank()
  {
  }

  /** Six stars: one bronze pip, then four white. One star: one white pip, then four empty. */
  lemma SmallCounts()
    ensures Pips(6) == [Bronze, White, White, White, White]
    ensures Pips(1) == [White, Empty, Empty, Empty, Empty]
  {
  }

  /** At 25 stars and above every pip is chromatic; at 0 and below every pip is empty. */
  lemma Extremes(count: int)
    ensures count >= 25 ==> Pips(count) == [Chromatic, Chromatic, Chromatic, Chromatic, Chromatic]
    ensures count <= 0 ==> Pips(count) == [Empty, Empty, Empty, Empty, Empty]
  {
  }
}

=== FILE: stat_resolver.dfy ===
/**
 * Derived numbers: a character's final stats (`calculateStats`), its power
 * score (`calculatePower`) and the passive income the arena roster earns per
 * tick. The source computes power and the star multiplier in floating
 * point; here the same formulas are evaluated over exact reals, and each
 * contract states the integer value that results.
 */
module StatResolver {
  import opened Base
  import opened Catalog
  import opened Equipment
  import opened GameState

  /** What one equipment entry adds: its item's stats with absent keys as 0, or nothing for `null`. */
  function SlotBonus(s: Slot): Stats
  {
    match s.item
    case None => ZeroStats
    case Some(it) => it.template.stats.Flat()
  }

  /** The sum over `Object.values(equipment)` of the non-null items' stats. */
  function Bonus(e: Loadout): Stats
  {
    if |e| == 0 then ZeroStats else SlotBonus(e[0]).Plus(Bonus(e[1..]))
  }

  /** `calculateStats`: the character's stored stats plus its equipment bonus; stars and level are not read. */
  function CalculateStats(c: Character): (r: Stats)
    ensures r == c.stats.Plus(Bonus(c.equipment))
    ensures (forall i :: 0 <= i < |c.equipment| ==> c.equipment[i].item.None?) ==> r == c.stats
  {
    BareStats(c.stats, c.equipment);
    c.stats.Plus(Bonus(c.equipment))
  }

  /** Stats plus the bonus of an all-`null` equipment object are the stats themselves. */
  lemma BareStats(st: Stats, e: Loadout)
    ensures (forall i :: 0 <= i < |e| ==> e[i].item.None?) ==> st.Plus(Bonus(e)) == st
  {
    if forall i :: 0 <= i < |e| ==> e[i].item.None? {
      EmptyLoadoutAddsNothing(e);
      SameStats(st.Plus(ZeroStats), st);
    }
  }

  /** Splitting the equipment object anywhere splits the bonus: each slot counts once, wherever it sits. */
  lemma {:induction false} BonusConcat(a: Loadout, b: Loadout)
    ensures Bonus(a + b) == Bonus(a).Plus(Bonus(b))
  {
    if |a| == 0 {
      assert a + b == b;
      SameStats(Bonus(b), ZeroStats.Plus(Bonus(b)));
    } else {
      assert (a + b)[0] == a[0] && (a + b)[1..] == a[1..] + b;
      BonusConcat(a[1..], b);
      PlusAssociates(SlotBonus(a[0]), Bonus(a[1..]), Bonus(b));
    }
  }

  /** Adding stats is associative. */
  lemma PlusAssociates(x: Stats, y: Stats, z: Stats)
    ensures x.Plus(y.Plus(z)) == x.Plus(y).Plus(z)
  {
    SameStats(x.Plus(y.Plus(z)), x.Plus(y).Plus(z));
  }

  /** An equipment object whose values are all `null` adds nothing. */
  lemma {:induction false} EmptyLoadoutAddsNothing(e: Loadout)
    requires forall i :: 0 <= i < |e| ==> e[i].item.None?
    ensures Bonus(e) == ZeroStats
  {
    if |e| > 0 {
      EmptyLoadoutAddsNothing(e[1..]);
    }
  }

  /** What the key `name` currently adds to the bonus: nothing when absent. */
  function KeyBonus(e: Loadout, name: string): Stats
  {
    match Lookup(e, name)
    case None => ZeroStats
    case Some(v) => SlotBonus(Slot(name, v))
  }

  /**
   * Writing `item` to the key `name` changes the equipment bonus by exactly the
   * new item's stats minus those of the value it replaced (nothing for a new key).
   */
  lemma {:induction false} PutChangesBonus(e: Loadout, name: string, item: Option<ItemInstance>)
    ensures Bonus(Put(e, name, item)).Plus(KeyBonus(e, name)) == Bonus(e).Plus(SlotBonus(Slot(name, item)))
  {
    if |e| == 0 {
      PutIntoEmpty(e, name, item);
    } else if e[0].name == name {
      PutOverHead(e, name, item);
    } else {
      var r, rest := Put(e, name, item), Put(e[1..], name, item);
      assert r == [e[0]] + rest;
      assert Bonus(r) == SlotBonus(e[0]).Plus(Bonus(rest));
      assert KeyBonus(e, name) == KeyBonus(e[1..], name);
      PutChangesBonus(e[1..], name, item);
      PlusShift(SlotBonus(e[0]), Bonus(rest), KeyBonus(e, name), Bonus(e[1..]), SlotBonus(Slot(name, item)));
    }
  }

  /** `PutChangesBonus` for an empty equipment object. */
  lemma PutIntoEmpty(e: Loadout, name: string, item: Option<ItemInstance>)
    requires |e| == 0
    ensures Bonus(Put(e, name, item)).Plus(KeyBonus(e, name)) == Bonus(e).Plus(SlotBonus(Slot(name, item)))
  {
    var s := Slot(name, item);
    assert Put(e, name, item) == [s];
    SingleBonus(s);
    SameStats(SlotBonus(s).Plus(ZeroStats), ZeroStats.Plus(SlotBonus(s)));
  }

  /** A one-entry equipment object adds its entry's bonus. */
  lemma SingleBonus(s: Slot)
    ensures Bonus([s]) == SlotBonus(s)
  {
    assert [s][1..] == [];
    SameStats(SlotBonus(s).Plus(ZeroStats), SlotBonus(s));
  }

  /** `PutChangesBonus` when the key is the first one. */
  lemma PutOverHead(e: Loadout, name: string, item: Option<ItemInstance>)
    requires |e| > 0 && e[0].name == name
    ensures Bonus(Put(e, name, item)).Plus(KeyBonus(e, name)) == Bonus(e).Plus(SlotBonus(Slot(name, item)))
  {
    var r := Put(e, name, item);
    assert r == [Slot(name, item)] + e[1..];
    assert r[1..] == e[1..];
    var b, old0, tail := SlotBonus(Slot(name, item)), SlotBonus(e[0]), Bonus(e[1..]);
    assert Bonus(r) == b.Plus(tail);
    assert KeyBonus(e, name) == old0;
    assert Bonus(e) == old0.Plus(tail);
    SameStats(b.Plus(tail).Plus(old0), old0.Plus(tail).Plus(b));
  }

  /** Two stats records with the same four numbers are the same record. */
  lemma SameStats(x: Stats, y: Stats)
    requires x.attack == y.attack && x.defense == y.defense && x.health == y.health && x.speed == y.speed
    ensures x == y
  {
  }

  /** Adding the same stats in front keeps an equation between two sums. */
  lemma PlusShift(a: Stats, b: Stats, c: Stats, d: Stats, f: Stats)
    requires b.Plus(c) == d.Plus(f)
    ensures a.Plus(b).Plus(c) == a.Plus(d).Plus(f)
  {
    assert b.Plus(c).attack == d.Plus(f).attack && b.Plus(c).defense == d.Plus(f).defense;
    assert b.Plus(c).health == d.Plus(f).health && b.Plus(c).speed == d.Plus(f).speed;
  }

  /** Final stats do not depend on stars or level: no multiplier is applied here. */
  lemma StatsIgnoreStarsAndLevel(c: Character, stars: int, level: Option<int>)
    ensures CalculateStats(c.(stars := stars, level := level)) == CalculateStats(c)
  {
  }

  /** The power weights of `calculatePower`, 2 / 1.5 / 0.5 / 2, as an exact sum. */
  function WeightedSum(s: Stats): real
  {
    2.0 * s.attack as real + 1.5 * s.defense as real + 0.5 * s.health as real + 2.0 * s.speed as real
  }

  /** `calculatePower`: the floor of the weighted sum, which is an integer halving of 4a + 3d + h + 4s. */
  function CalculatePower(c: Character): (p: int)
    ensures var s := CalculateStats(c);
      2 * p <= 4 * s.attack + 3 * s.defense + s.health + 4 * s.speed < 2 * p + 2
  {
    WeightedSum(CalculateStats(c)).Floor
  }

  /** The power of the roster entry `uid`: 0 when the uid is not in the inventory. */
  function MemberPower(inv: seq<Character>, uid: string): int
  {
    match FindByUid(inv, uid)
    case None => 0
    case Some(c) => CalculatePower(c)
  }

  /** The ticker's `totalPower`, accumulated over the roster in order. */
  function RosterPower(inv: seq<Character>, roster: seq<string>): (r: int)
    ensures (forall k :: 0 <= k < |roster| ==> FindByUid(inv, roster[k]).None?) ==> r == 0
  {
    if |roster| == 0 then 0
    else RosterPower(inv, roster[..|roster| - 1]) + MemberPower(inv, roster[|roster| - 1])
  }

  /** The power of a roster is the power of its first part plus that of the rest. */
  lemma {:induction false} RosterPowerConcat(inv: seq<Character>, a: seq<string>, b: seq<string>)
    ensures RosterPower(inv, a + b) == RosterPower(inv, a) + RosterPower(inv, b)
    decreases |b|
  {
    if |b| == 0 {
      assert a + b == a;
    } else {
      var b' := b[..|b| - 1];
      assert (a + b)[..|a + b| - 1] == a + b' && (a + b)[|a + b| - 1] == b[|b| - 1];
      RosterPowerConcat(inv, a, b');
    }
  }

  /** A one-member roster is worth that member's power, or nothing when the uid is not owned. */
  lemma RosterPowerSingle(inv: seq<Character>, uid: string)
    ensures RosterPower(inv, [uid]) == MemberPower(inv, uid)
  {
    assert [uid][..0] == [];
  }

  /** A roster uid with no character behind it contributes nothing. */
  lemma MissingMemberAddsNothing(inv: seq<Character>, roster: seq<string>, uid: string)
    requires forall j :: 0 <= j < |inv| ==> inv[j].uid != uid
    ensures RosterPower(inv, roster + [uid]) == RosterPower(inv, roster)
  {
    assert (roster + [uid])[..|roster|] == roster;
  }

  /**
   * The amount the one-second ticker dispatches as `ADD_CURRENCY`: nothing when
   * the roster's power is not positive, otherwise a tenth of it, rounded down, but at least 1.
   */
  function PassiveIncome(s: State): (r: Option<int>)
    ensures var total := RosterPower(s.inventory, s.arenaRoster);
      && (r.Some? <==> total > 0)
      && (r.Some? ==> r.value >= 1)
      && (r.Some? && total >= 10 ==> 10 * r.value <= total < 10 * r.value + 10)
      && (r.Some? && total < 10 ==> r.value == 1)
  {
    var total := RosterPower(s.inventory, s.arenaRoster);
    if total > 0 then
      var tenth := (total as real / 10.0).Floor;
      Some(if tenth > 1 then tenth else 1)
    else None
  }
}

=== FILE: turn_order.dfy ===
/**
 * The order in which the units of a round act. The source concatenates
 * allies then enemies and sorts by descending speed with a stable sort, so
 * of two equally fast units the one earlier in that list acts first. Units
 * are named here by their index in the concatenated list.
 */
module TurnOrder {
  /** Unit `i` acts before unit `j`: it is faster, or as fast and earlier in the list. */
  predicate Before(speeds: seq<int>, i: nat, j: nat)
    requires i < |speeds| && j < |speeds|
  {
    speeds[i] > speeds[j] || (speeds[i] == speeds[j] && i < j)
  }

  /** Every entry of `order` names a unit. */
  predicate InRange(speeds: seq<int>, order: seq<nat>)
  {
    forall a :: 0 <= a < |order| ==> order[a] < |speeds|
  }

  /** Each unit in `order` acts before every unit after it. */
  predicate Ordered(speeds: seq<int>, order: seq<nat>)
    requires InRange(speeds, order)
  {
    forall a, b :: 0 <= a < b < |order| ==> Before(speeds, order[a], order[b])
  }

  /** Put unit `i` into a list, after the leading units that act before it. */
  function Insert(speeds: seq<int>, i: nat, order: seq<nat>): (r: seq<nat>)
    requires i < |speeds| && InRange(speeds, order)
    ensures |r| == |order| + 1 && InRange(speeds, r)
    ensures forall x :: x in r <==> x in order || x == i
  {
    if |order| == 0 then [i]
    else if Before(speeds, order[0], i) then
      assert forall x :: x in order <==> x == order[0] || x in order[1..];
      [order[0]] + Insert(speeds, i, order[1..])
    else
      [i] + order
  }

  /** Dropping the first unit of an ordered list leaves it ordered. */
  lemma TailOrdered(speeds: seq<int>, order: seq<nat>)
    requires |order| > 0 && InRange(speeds, order) && Ordered(speeds, order)
    ensures InRange(speeds, order[1..]) && Ordered(speeds, order[1..])
  {
    forall a, b | 0 <= a < b < |order[1..]|
      ensures Before(speeds, order[1..][a], order[1..][b])
    {
      assert order[1..][a] == order[a + 1] && order[1..][b] == order[b + 1];
    }
  }

  /** Inserting a unit not yet listed into an ordered list keeps it ordered. */
  lemma {:induction false} InsertKeepsOrder(speeds: seq<int>, i: nat, order: seq<nat>)
    requires i < |speeds| && InRange(speeds, order)
    requires Ordered(speeds, order) && i !in order
    ensures Ordered(speeds, Insert(speeds, i, order))
  {
    var r := Insert(speeds, i, order);
    if |order| > 0 && Before(speeds, order[0], i) {
      var rest := Insert(speeds, i, order[1..]);
      TailOrdered(speeds, order);
      InsertKeepsOrder(speeds, i, order[1..]);
      assert r == [order[0]] + rest;
      forall b | 0 <= b < |rest|
        ensures Before(speeds, order[0], rest[b])
      {
        if rest[b] != i {
          assert rest[b] in order[1..];
          var k :| 0 <= k < |order[1..]| && order[1..][k] == rest[b];
          assert order[k + 1] == rest[b];
        }
      }
    } else if |order| > 0 {
      // i is not after order[0], so it is before it, and hence before the whole list
      assert r == [i] + order;
      forall b | 0 <= b < |order|
        ensures Before(speeds, i, order[b])
      {
        if b > 0 {
          assert Before(speeds, order[0], order[b]);
        }
      }
    }
  }

  /** The first `n` units in acting order: a stable sort of 0 .. n-1 by descending speed. */
  function SortFirst(speeds: seq<int>, n: nat): (r: seq<nat>)
    requires n <= |speeds|
    ensures |r| == n && InRange(speeds, r)
    ensures forall x: nat :: x in r <==> x < n
    ensures Ordered(speeds, r)
  {
    if n == 0 then []
    else
      var prev := SortFirst(speeds, n - 1);
      assert n - 1 !in prev;
      InsertKeepsOrder(speeds, n - 1, prev);
      Insert(speeds, n - 1, prev)
  }

  /** The acting order of a round: every unit exactly once, faster first, ties in list order. */
  function Schedule(speeds: seq<int>): (r: seq<nat>)
    ensures |r| == |speeds| && InRange(speeds, r)
    ensures forall x: nat :: x in r <==> x < |speeds|
    ensures Ordered(speeds, r)
  {
    SortFirst(speeds, |speeds|)
  }

  lemma HeadIsMember(s: seq<nat>)
    requires |s| > 0
    ensures s[0] in s
  {
  }

  /** An order that lists the same units and is ordered is the same order: the schedule is the only one. */
  lemma {:induction false} OrderedUnique(speeds: seq<int>, p: seq<nat>, q: seq<nat>)
    requires InRange(speeds, p) && InRange(speeds, q)
    requires Ordered(speeds, p) && Ordered(speeds, q)
    requires forall x :: x in p <==> x in q
    ensures p == q
    decreases |p|
  {
    if |p| > 0 && |q| > 0 {
      // each head acts before every other member of both lists, so the heads agree
      assert p[0] in p && q[0] in q;
      assert p[0] == q[0];
      forall x
        ensures x in p[1..] <==> x in q[1..]
      {
        if x in p[1..] {
          var a :| 0 <= a < |p[1..]| && p[1..][a] == x;
          assert Before(speeds, p[0], p[a + 1]);
          assert x in q;
          var b :| 0 <= b < |q| && q[b] == x;
          assert b != 0;
          assert q[1..][b - 1] == x;
        }
        if x in q[1..] {
          var b :| 0 <= b < |q[1..]| && q[1..][b] == x;
          assert Before(speeds, q[0], q[b + 1]);
          assert x in p;
          var a :| 0 <= a < |p| && p[a] == x;
          assert a != 0;
          assert p[1..][a - 1] == x;
        }
      }
      TailOrdered(speeds, p);
      TailOrdered(speeds, q);
      OrderedUnique(speeds, p[1..], q[1..]);
      assert p == [p[0]] + p[1..] && q == [q[0]] + q[1..];
    } else if |p| > 0 {
      // p[0] would have to be in the empty q
      HeadIsMember(p);
      assert false;
    } else if |q| > 0 {
      HeadIsMember(q);
      assert false;
    }
  }

  /** The schedule of a unit list is the unique ordered arrangement of all its units. */
  lemma ScheduleIsTheSort(speeds: seq<int>, p: seq<nat>)
    requires InRange(speeds, p) && Ordered(speeds, p)
    requires forall x: nat :: x in p <==> x < |speeds|
    ensures p == Schedule(speeds)
  {
    OrderedUnique(speeds, p, Schedule(speeds));
  }
}
